=== FILE: README.md ===
# Daily Facts: a Dafny model of the extension's decision logic

Daily Facts is a browser extension that shows one short fact a day, with a
free tier capped at five facts per calendar date and a premium tier without
a cap. Its administrators maintain the fact database from an admin page and
two CSV import endpoints. This project models the logic of that system as
pure functions over immutable values and proves what the code promises:

- the daily quota (`checkDailyLimit` / `updateDailyCount`) and the delivery
  pipeline that consults it (`fetchAndShowFact` in the background page,
  `getFact` in the popup) — modules `Quota`, `Storage`;
- the daily alarm's first fire instant (`setupDailyAlarm`) — `Schedule`,
  `Clock`;
- the popup's fact selection with its six-month recency window, the
  recycling of old facts and the today counter — `Selector`;
- the pause controls — `Pause`;
- the saved-facts list in the popup and on the options page — `Saved`;
- the options page: defaults, checkboxes and labels, the empty-selection
  check, the premium upgrade — `Options`;
- the admin page (database-manager.js): CSV parsing, bulk import, the list
  filter, add/edit, hide/show, delete and the counters — `Admin`, with the
  category whitelist and tag splitting shared with index.js in `Catalog`;
- the serverless CSV endpoint (bulk-upload.js) — `BulkUpload`;
- the Express API (index.js): the `getFacts` query construction and row
  mapping, `addFact`, and the `bulkUpload` row normalisation — `Api`.

`Text` (split, join, trim, case, `parseInt`, decimal printing) and `Seqs`
(filter and count) are the library the modules share; `Wrappers` holds
`Option` and `Result`.

Conventions of the model:

- `chrome.storage.local` is a `Store` record whose fields are `Option`s:
  `None` is an absent key, so every `x || default` of the code is explicit
  (an empty `notificationTime` string falls back to "09:00", a stored empty
  category list does not).
- Time is an integer count of epoch milliseconds on a local clock without
  time zones; a calendar date (`toDateString`) is the whole number of days,
  `t / MsPerDay`. `setHours(h, m, 0, 0)` is midnight plus `h` hours and `m`
  minutes, so out-of-range values roll over as in ECMA-262.
- `Math.random()` is a parameter `r` with `0 <= r < 1`, and
  `Math.floor(r * n)` is `Clock.RandomIndex`. Fresh ids (`generateId`,
  `Date.now() + Math.random()`), the current instant, the user's answer to
  `confirm`, and the network reply are parameters too.
- `parseInt` is modelled (leading blanks, sign, longest digit prefix);
  `None` stands for `NaN`.

## Model

| member | source | states |
|---|---|---|
| Storage.Install | background.js:19-31 | after installation the user is on the free tier with a zero count reset today, the "all" selection, the 09:00 time and no saved facts; a pause record is left alone |
| Storage.NotificationTime | background.js:143 | the stored time when it is a non-empty string, "09:00" otherwise; never empty |
| Quota.CheckDailyLimit | background.js:89-113 | premium passes without a write; a reset date other than today restarts the count at 0, records today and passes whatever the old count; otherwise passes exactly when the count (0 when absent) is below 5; nothing but the count and reset date is ever written |
| Quota.UpdateDailyCount | background.js:116-128 | a free user's count goes up by exactly one (from 0 when absent); a premium user's storage is untouched; no other key changes |
| Quota.CheckIdempotent | background.js:101-109 | the reset happens at most once a day: checking again on the same date returns the same verdict and storage |
| Quota.AllowedIffUnderLimit | background.js:101-112 | for a free user the verdict is exactly "the count after any reset is below the limit", so the reset is decided before the limit |
| Quota.RequestedCategory | background.js:64-67 | the requested category is one of the stored categories, "all" when none is stored, and undefined only for a stored empty list |
| Quota.Deliver | background.js:55-86 | refused exactly when the quota check refuses, with no request and no write; a fact is shown exactly when the reply succeeds with a non-empty list, and it is the first fact; only then does the count rise, by one for a free user; a reset written by the check stays written whatever the fetch does |
| Quota.Notice | background.js:55-86 | the "Daily Fact" title is raised exactly for a shown fact, whose text is the message, and the limit title exactly when the limit refused |
| Quota.FetchAndShowFact | background.js:55-86 | the "Daily Fact" notification is raised exactly when a fact is shown; the limit notification leaves storage unchanged; one call raises the count by at most one |
| Quota.GetFact | popup.js:351-387 | the popup shows a fact card exactly when the pipeline shows a fact, and the limit message exactly when the quota check refuses; storage ends as the pipeline leaves it |
| Quota.FreeUserDailyCap | background.js:3 | whatever the replies, a run of attempts on one date shows a free user at most five facts less those already counted, and every fact shown is counted |
| Quota.PremiumUnlimited | background.js:96-99 | a premium user is shown a fact for every successful reply and the stored counter never moves |
| Quota.FreshInstallScenario | background.js:19-31 | from a fresh install five fetches on the install date succeed and count to five, the sixth is refused, and after an upgrade the next fetch succeeds without counting |
| Clock.StartOfDay | background.js:146-148 | midnight of an instant's date lies at or before it and less than a day before, on the same date |
| Clock.StartOfDayRemainder | background.js:148 | midnight is the instant less its remainder within the day |
| Clock.RandomIndex | popup.js:49 | `Math.floor(Math.random() * n)` is a valid index of a non-empty list |
| Clock.RandomIndexReaches | popup.js:49 | every index of a non-empty list is drawn by some random value |
| Schedule.ParseTime | background.js:145-148 | a time without a ":" has no minutes part, parses as `NaN` and gives no time |
| Schedule.FirstFire | background.js:145-153 | the fire instant shows the requested wall-clock time, is strictly after now for a non-negative offset, is today's instance when that is still ahead, and is at most one day away |
| Schedule.FirstFireIsEarliest | background.js:150-153 | no instant between now and the chosen one shows the requested time of day: the alarm fires at the first opportunity |
| Schedule.SetupDailyAlarm | background.js:141-159 | the alarm is "dailyFact" with a 1440-minute period, exists exactly when both halves of the stored time parse, and first fires at FirstFire of the stored hours and minutes, after now |
| Schedule.AlarmAtFirstOpportunity | background.js:141-153 | for a stored time within the day, the alarm first fires at the earliest instant after now showing that time: no later such instant comes before it |
| Schedule.Pad2 | background.js:145 | an hour or minute is written as exactly two digits |
| Schedule.FormatTime | options.js:218 | the stored time is five characters, two digits, a ":" and two digits |
| Schedule.ParsePad2 | background.js:148 | `parseInt` reads back a two-digit number |
| Schedule.ParseFormatTime | background.js:145-148 | every "HH:MM" string the time input can hold splits and parses back to its hour and minute |
| Schedule.DefaultAlarm | background.js:143 | with nothing stored the alarm is built from 09:00 |
| Schedule.DefaultTimeExamples | background.js:150-153 | with nothing stored, at 08:00 the alarm fires in one hour and at 10:00 it fires in 23 hours |
| Selector.Eligible | popup.js:63-67 | a fact can be offered when it is not hidden and, for a tier other than "free", its category is selected |
| Selector.AvailableFacts | popup.js:57-70 | a fact is available exactly when it is in the pool, not hidden, and (for a tier other than "free") in the selected categories; the free tier keeps every visible fact |
| Selector.RecentlyShown | popup.js:36-42 | a fact counts as recently shown when a history entry for its id is strictly newer than six months before now |
| Selector.UnseenFacts | popup.js:36-42 | an available fact is unseen exactly when no history entry for its id is newer than the six-month cut-off |
| Selector.RecencyExpires | popup.js:36-42 | a fact shown once is excluded until exactly 180 days later and eligible from then on (the comparison is strict) |
| Selector.LoadCurrentFact | popup.js:31-55 | no candidates gives the empty state, candidates all seen recently give "no new facts" without a history write, and otherwise the chosen fact is available and unseen and exactly one history entry for it at the current instant is appended |
| Selector.EveryUnseenFactReachable | popup.js:49-53 | every unseen fact can be the one chosen |
| Selector.NoRepeatWithinWindow | popup.js:36-53 | a fact just shown is not chosen again by any load before its window closes |
| Selector.RecycleOldFacts | popup.js:476-485 | recycling picks from the available facts with no recency filter, finds nothing only when none is available, and writes no history |
| Selector.RecycleReachesExcluded | popup.js:476-485 | every available fact, including those the recency filter excludes, can be recycled |
| Selector.TodayCount | popup.js:232-233 | the today counter never exceeds the history length |
| Selector.UpdateStats | popup.js:225-238 | today's count is the number of history entries dated today, so a load adds exactly one to it (Selector.ChosenCountsToday); it is at most the total, which is the history length; the saved count is the saved list's length |
| Selector.ChosenCountsToday | popup.js:49-53 | loading a fact adds one to the counter of the date it was loaded and nothing to any other date |
| Pause.IsPaused | popup.js:247 | notifications are paused when a pause record exists and its end lies strictly after now; an expired record stays stored |
| Pause.PauseUntil | popup.js:266-274 | "tomorrow" ends at 09:00 on the next date, "manual" at `MAX_SAFE_INTEGER`, any other duration at now plus its parsed value and never when it does not parse |
| Pause.PauseNotifications | popup.js:263-285 | the pause record is written with its end, start and duration, and no other key changes |
| Pause.PauseIsInterval | popup.js:247 | a pause covers every instant before its end and none after: paused at an instant means paused at every earlier one |
| Pause.ResumeNotifications | popup.js:287-291 | after a resume no instant is paused, and no other key changes |
| Pause.ManualPauseHolds | popup.js:247 | a manual pause is in force at every instant a `Date` can represent |
| Pause.TomorrowPauseWindow | popup.js:266-274 | a "tomorrow" pause ends at 09:00 of the next date, between nine and 33 hours ahead, and is in force exactly until then |
| Pause.TimedPauseWindow | popup.js:247 | a pause of n milliseconds is in force exactly until now + n |
| Pause.UnparsedDurationNeverPauses | popup.js:247 | a duration that does not parse never pauses (`NaN > now` is false) |
| Saved.SaveToList | popup.js:137-152 | a fact whose id is already saved leaves the list as it is; otherwise exactly one entry is appended; afterwards the id is saved |
| Saved.SaveIdempotent | popup.js:137-152 | saving the same fact a second time, at any instant, changes nothing |
| Saved.SavePreservesUniqueness | popup.js:137-152 | saving keeps saved ids distinct, and afterwards exactly one entry carries the saved id |
| Saved.SaveFact | popup.js:130-161 | nothing is written without a current fact or for an already-saved id; otherwise the list (empty when absent) gains exactly the new entry and no other key changes |
| Saved.SpliceOne | options.js:167 | `splice(index, 1)` removes one element for an index within the list or counted from its end, and none past its end |
| Saved.SpliceRemovesExactlyOne | options.js:164-171 | removing position i keeps the elements before it in place, shifts the later ones down by one, and loses exactly that element |
| Saved.RemoveSavedFact | options.js:162-179 | the stored list loses exactly the indexed entry, an index past the end changes nothing, and no other key changes |
| Saved.RemoveKeepsUniqueness | options.js:164-171 | removing an entry keeps the saved ids distinct |
| Saved.ClearSavedFacts | options.js:182-198 | a confirmed clear stores the empty list, a declined one changes nothing, and no other key changes |
| Options.Label | options.js:119 | the caption is the category with its first character upper-cased and, after it, exactly the first hyphen turned into a space; every other character is kept |
| Options.LabelExample | options.js:119 | only the first letter is capitalised and only the first hyphen becomes a space |
| Options.CategoryCheckboxes | options.js:104-126 | one checkbox per category in page order, checked exactly when its category is selected, captioned with its label |
| Options.LoadSettings | options.js:57-79 | premium is shown exactly when stored as true; a stored non-empty time is shown as stored, an absent or empty one as "09:00"; with a stored selection exactly the boxes of the selected categories are checked, and with none only the "all" box |
| Options.Picked | options.js:204-208 | the selection is empty exactly when no box is checked and holds only category values |
| Options.PickedMembership | options.js:204-208 | a category is in the selection exactly when its box is checked |
| Options.SaveThenLoadRoundTrip | options.js:201-229 | after a successful save, loading the settings checks exactly the boxes that were checked and shows the time that was typed ("09:00" when it was left empty); a refused save leaves the loaded page as it was |
| Options.SaveSettings | options.js:201-229 | no checked box gives the error message and no write; otherwise exactly the selection and the time are written and the alarm is rebuilt from the new storage |
| Options.SavedSelectionNonEmpty | options.js:210-213 | a successful save stores a non-empty selection of known categories |
| Options.UpgradeToPremium | options.js:232-252 | a confirmed upgrade makes the user premium, a declined one changes nothing, and no other key changes |
| Options.UpgradeLiftsQuota | options.js:239-246 | after a confirmed upgrade every quota check passes without a write |
| Catalog.NormalizeCategory | database-manager.js:202 | the stored category is always whitelisted: the lower-cased value when that is on the list, "science" otherwise |
| Catalog.NormalizeIdempotent | index.js:181 | a normalised category normalises to itself |
| Catalog.Tags | database-manager.js:204 | no tags for an absent or empty cell; otherwise one tag more than the number of semicolons, none containing a semicolon |
| Catalog.TagsRoundTrip | index.js:183 | tags written trimmed and joined with semicolons are read back unchanged |
| Admin.Headers | database-manager.js:137 | one header per comma-separated piece, none containing a comma |
| Admin.Field | database-manager.js:145 | a field carries no double quote, and a field past the end of the line is empty |
| Admin.UnquotedField | database-manager.js:145 | a field without quotes reads as its trimmed cell |
| Admin.QuotedField | database-manager.js:145 | a quoted field reads as what is between the quotes with the quotes removed: the trim comes first, so blanks inside the quotes are kept |
| Admin.QuotedBlankKept | database-manager.js:145 | the field `" a"` reads as ` a` |
| Admin.Record | database-manager.js:143-147 | a record has exactly the header names as keys, and no value carries a double quote |
| Admin.RecordField | database-manager.js:144-146 | the value under a header is the field at its position when no later header has the same name (a later duplicate wins) |
| Admin.Records | database-manager.js:140-149 | one record per line that is not blank after trimming, each keyed by exactly the headers |
| Admin.RecordsConcat | database-manager.js:140-149 | lines are read one at a time and in order: the records of two runs of lines are those of the first followed by those of the second |
| Admin.RecordsSingle | database-manager.js:141-148 | a blank line gives no record; any other line gives the record of its comma-separated fields under the headers |
| Admin.ParseCsv | database-manager.js:130-158 | the header line gives no record, one record per non-blank later line, each keyed by exactly the headers |
| Admin.ParseCsvLines | database-manager.js:136-149 | the first line names the columns and the lines after it are read, in order, as records under those names |
| Admin.HeadersRoundTrip | database-manager.js:137 | comma-joined trimmed lower-case headers are read back unchanged |
| Admin.RecordReadsValues | database-manager.js:144-146 | with distinct headers and clean values, each header maps to the value in its column |
| Admin.CsvRoundTrip | database-manager.js:130-158 | a header line and one data line written with commas parse to one record mapping every header to its value |
| Admin.ImportedFact | database-manager.js:197-208 | an imported fact takes "text", or "fact" when text is empty; its category is the lower-cased cell when whitelisted and "science" otherwise; its tags are the cell split on ";" and trimmed; its source is dropped when empty; it is visible and stamped with the import instant |
| Admin.Imported | database-manager.js:197-213 | exactly the rows with text become facts, each visible, non-empty, whitelisted and carrying a fresh id |
| Admin.ImportedConcat | database-manager.js:197-213 | rows are imported one at a time and in order: two batches give the facts of the first followed by those of the second |
| Admin.ImportedSingle | database-manager.js:198-212 | a row with text gives exactly its imported fact, stamped with its id; a row without gives nothing |
| Admin.ProcessBulkData | database-manager.js:179-216 | the database keeps its facts in place and grows by exactly the number of rows with text |
| Admin.ProcessInBatches | database-manager.js:197-213 | importing two batches one after the other leaves the same database as importing them together |
| Admin.ProcessOneRow | database-manager.js:198-212 | one row appends its fact at the end when it has text and leaves the database alone otherwise |
| Admin.ImportKeepsExactlyTextRows | database-manager.js:197-213 | every row is imported exactly when every row carries text |
| Admin.ImportMessageAsWritten | database-manager.js:121 | the message as written agrees with the count of facts added exactly when every parsed row carries text |
| Admin.ImportMessageCountsAdded | database-manager.js:120-121 | the corrected message reports exactly the number of facts appended |
| Admin.ImportMessageOvercounts | database-manager.js:121 | a single row with an empty text cell adds nothing, yet the message reports one fact |
| Admin.MatchesSearch | database-manager.js:247-253 | a fact matches the search when the lower-cased term occurs in its lower-cased text, category, non-empty source or one of its tags |
| Admin.Matches | database-manager.js:247-259 | a fact is listed when it matches the search, the category filter (empty matches all) and the status filter |
| Admin.FilterFacts | database-manager.js:242-263 | a fact is listed exactly when it matches the search in text, category, source or a tag, the category filter, and the status filter |
| Admin.EmptyFiltersShowAll | database-manager.js:254-257 | with every filter empty the whole database is listed, in order |
| Admin.StatusPartition | database-manager.js:256-257 | the "visible" and "hidden" listings together are as long as the unfiltered status listing |
| Admin.UnknownStatusShowsNothing | database-manager.js:256-257 | a status other than empty, "visible" or "hidden" lists nothing |
| Admin.FormTags | database-manager.js:372 | a blank tag box gives no tags; otherwise one tag more than the commas, none containing a comma |
| Admin.FindIndex | database-manager.js:390 | the position of the first fact with the id, or the length when there is none |
| Admin.FindIndexFound | database-manager.js:476-478 | the id is found exactly when some fact carries it |
| Admin.FormSource | database-manager.js:370-382 | a blank source box gives no source, otherwise its trimmed text |
| Admin.FromForm | database-manager.js:379-386 | a fact built from the form takes its trimmed text, category, source and tags and the given id, date and visibility |
| Admin.SaveFact | database-manager.js:367-405 | refused exactly for a blank text, an empty category, or an edited id no longer present; an add appends one visible fact stamped now with a fresh id; an edit replaces only the first fact with the id, keeping its id, date and visibility |
| Admin.Replaced | database-manager.js:389-391 | an edit overwrites the first fact with the edited id with the form's values, keeping its id, date added and visibility, and leaves every other fact as it was |
| Admin.Appended | database-manager.js:392-399 | an add keeps every earlier fact and puts one new visible fact, stamped now with the fresh id and holding the form's values, at the end |
| Admin.EditIdempotent | database-manager.js:388-391 | saving the same edit twice gives the database of one save |
| Admin.SaveKeepsIds | database-manager.js:388-399 | a save never changes the id of an existing fact |
| Admin.ToggleVisibility | database-manager.js:414-422 | only the first fact with the id flips its hidden flag, every other field and fact stays, and an unknown id changes nothing |
| Admin.ToggleTwice | database-manager.js:414-422 | toggling twice restores the database |
| Admin.DeleteFact | database-manager.js:424-431 | a confirmed delete removes exactly the facts with the id, keeping the others; a declined one changes nothing |
| Admin.DeleteConcat | database-manager.js:426 | a delete keeps the order of what it keeps: deleting from two runs of facts leaves what is left of the first followed by what is left of the second |
| Admin.DeleteSingle | database-manager.js:426 | a single fact goes exactly when it carries the id |
| Admin.DeleteCount | database-manager.js:426 | the facts removed are exactly those carrying the id |
| Admin.CategorySet | database-manager.js:454 | the distinct categories of the database are the categories some fact has |
| Admin.ComputeStats | database-manager.js:450-460 | the total is the database size, hidden is total minus visible, and the category count is the number of distinct categories, never more than the facts |
| Admin.StatsMatchListings | database-manager.js:451-453 | the visible and hidden counters equal the lengths of the "visible" and "hidden" listings |
| BulkUpload.Cell | bulk-upload.js:58 | a cell carries no double quote and no surrounding white space |
| BulkUpload.CellReads | bulk-upload.js:58 | a cell reads the same with its quotes taken out beforehand, and a cell without quotes reads as its trimmed text, so the quotes go before the trim |
| BulkUpload.QuotedCell | bulk-upload.js:58 | a quoted cell reads as what is between the quotes without quotes and trimmed: blanks inside the quotes are lost |
| BulkUpload.QuotedBlankLost | bulk-upload.js:58 | the cell `" a"` reads as `a` |
| BulkUpload.CellAt | bulk-upload.js:58 | a cell past the end of the line is empty |
| BulkUpload.RowOf | bulk-upload.js:59-60 | a row is kept exactly when text and category are non-empty, and an empty source becomes "Bulk upload" |
| BulkUpload.LineRow | bulk-upload.js:56-61 | a blank line gives no row; a row's cells carry no double quote |
| BulkUpload.Rows | bulk-upload.js:55-63 | one row at most per line, kept in line order |
| BulkUpload.RowsConcat | bulk-upload.js:55-63 | lines are read one at a time and in order: the rows of two runs of lines are those of the first followed by those of the second |
| BulkUpload.RowsSingle | bulk-upload.js:56-62 | one line gives its row when it has one and nothing otherwise |
| BulkUpload.ParseUpload | bulk-upload.js:52-55 | the header line never gives a row, so a body without a newline gives none |
| BulkUpload.ParseUploadLines | bulk-upload.js:51-63 | the first line is skipped and the lines after it give, in order, the rows of Rows |
| BulkUpload.HeaderIgnored | bulk-upload.js:55 | the header line has no say in what is uploaded |
| BulkUpload.LineRoundTrip | bulk-upload.js:56-60 | a line written from three clean cells is read back as exactly those cells |
| BulkUpload.BlankLinesYieldNothing | bulk-upload.js:56-57 | lines that are blank after trimming give no rows |
| Seqs.Surviving | bulk-upload.js:69-88 | no more rows are stored than were sent, each stored row was sent, and all of them are stored when none is rejected |
| Seqs.SurvivingConcat | bulk-upload.js:69-88 | inserts are judged one at a time and in order: the rows stored from two runs are those of the first followed by those of the second |
| Seqs.SurvivingSingle | bulk-upload.js:69-88 | one row is stored exactly when its insert is not rejected |
| BulkUpload.Handle | bulk-upload.js:29-102 | OPTIONS answers 200 and any other method but POST 405; an upload succeeds exactly for a non-empty body with parsed rows that all insert, and then reports and appends exactly those rows; a missing body answers 500 and an absent or empty CSV 400 "CSV data is required", neither writing; a CSV without rows answers 400 "No valid facts found in CSV data"; when some insert is rejected the reply is 500 and the rows whose inserts succeeded stay stored; the table is only ever extended |
| BulkUpload.BlankBodyRefused | bulk-upload.js:65-67 | a body with only blank lines after its header is refused with 400 and no write |
| BulkUpload.NoRowsRefused | bulk-upload.js:65-67 | any body that yields no rows is refused with 400 and no write |
| Api.ToApiFact | index.js:74-79 | the flags become booleans (true for non-zero), absent tags become the empty list, and every other column is copied |
| Api.Conditions | index.js:53-64 | one condition for a non-empty category and one for a given hidden parameter |
| Api.Params | index.js:53-64 | one bound value per condition: the category string first when a category is named, and last the hidden flag, 1 exactly for "true" and 0 otherwise |
| Api.PlaceholdersMatchParams | index.js:53-66 | the query text has exactly as many placeholders as bound values |
| Api.ConditionsMeanWanted | index.js:53-64 | a row satisfies every condition exactly when it has the requested category and, when asked, hidden equal to 1 for "true" and 0 for any other value |
| Api.GetFacts | index.js:50-84 | the listing holds exactly the mapped rows that satisfy the filters, one entry per such row |
| Api.GetFactsConcat | index.js:50-84 | rows are listed one at a time in table order: two runs of rows list those of the first followed by those of the second |
| Api.GetFactsSingle | index.js:50-84 | one row is listed, mapped, exactly when it satisfies the filters |
| Api.AddFact | index.js:86-117 | refused with "Text and category are required" exactly when text or category is missing or empty; otherwise the stored row has the given fields, no source unless one is given, tags, hidden 0 and verified 1 |
| Api.AddThenRead | index.js:94-103 | a fact just added reads back as visible and verified with its fields, and is listed under its category with hidden "false" |
| Api.BulkRow | index.js:178-188 | a kept row is stored with trimmed text, its lower-cased category cell when that is whitelisted and "science" otherwise, the source cell as given when non-empty and none otherwise, split tags, hidden 0 and verified 1 |
| Api.BulkRows | index.js:176-190 | one stored row per kept record, all visible, verified and whitelisted |
| Api.BulkRowsConcat | index.js:176-190 | records are handled one at a time and in order: two runs of records store the rows of the first followed by those of the second |
| Api.BulkRowsSingle | index.js:177-189 | one record is stored as its row exactly when it has text and category |
| Api.BulkRowsCount | index.js:177 | every row is stored exactly when every row has text and category |
| Api.BulkUpload | index.js:150-218 | no file is an error with no write; otherwise the reply counts every kept record, the table is only extended, by rows of those records and no more than counted, and by exactly those rows when no insert is rejected |
| Api.BlankTextStored | index.js:177-180 | a text cell of only blanks passes the check (the check comes before trimming) and is stored empty |

## Left out

- Rendering: DOM updates, modals, status messages, notification icons and timers are presentation and are not modelled; each operation's outcome is a value instead.
- Storage, alarms, notifications and messaging run asynchronously in the code; the model runs each operation against one storage value, so interleavings between the popup and the background page are not modelled.
- `fetch`, SQLite and file streams are I/O: the network reply, the table contents, the set of failing inserts and the rows the csv-parser library produces are parameters.
- Api.GetFacts: the `ORDER BY dateAdded DESC` ordering is not modelled; the listing is in table order, as Api.GetFactsConcat and Api.GetFactsSingle state.
- Api.AddFact and Api.BulkRow: the tags column holds the list instead of its JSON text; `JSON.stringify` and `JSON.parse` are taken as inverse.
- `updateFact`, `deleteFact`, `verifyPayment` and `getStats` of index.js, verify-payment.js, health.js, facts.js and stats.js: SQL or payment wrappers with no decision logic.
- `parseExcel` of database-manager.js always resolves to the empty list; `uploadFile`, `loadStats`, `loadSampleFacts` and `exportDatabase` are I/O.
- Background message actions: the popup sends `getSettings`, `getFactsDatabase`, `addToHistory`, `getFactHistory` and `getSavedFacts`, and the admin page `updateFactsDatabase`, but no handler for them appears in the repository; the only listener (background.js:164-172) answers `getFact` and `updateAlarm`. Their replies are parameters, and Selector.LoadCurrentFact assumes that `addToHistory` appends `{factId, timestamp: now}` to the history.
- popup.js repeats `checkDailyLimit` and `updateDailyCount` (popup.js:389-430) and `upgradeToPremium` (popup.js:451-473) with the same logic; each is modelled once, by Quota.CheckDailyLimit, Quota.UpdateDailyCount and Options.UpgradeToPremium.
- `recycleOldFacts` builds a new popup object, whose constructor starts another load; that side effect is not modelled.
- Time zones and daylight saving: a date is a whole number of days of 86 400 000 ms.
- Clock.StartOfDay and Schedule.FirstFire use unbounded integers; the time-value range of a `Date` matters only for Pause.ManualPauseHolds, which states it.
- Schedule.SetupDailyAlarm: a time that does not parse gives no alarm; the code would pass an invalid date to the alarms API.
- Text.ToLower and Text.UpperChar map ASCII letters only; other characters are left as they are.
- Selector.TodayCount states only the bound; its exact value is tied to loading by Selector.ChosenCountsToday.
- BulkUpload.Handle: an insert failure after others succeeded leaves those rows stored, as `Promise.all` does; the model keeps them (Seqs.Surviving) and answers 500. A missing request body, which throws on destructuring, also answers 500.
- Admin.Records: its own contract gives the number of records and their keys; which line yields which record is stated by Admin.RecordsConcat and Admin.RecordsSingle, which together fix every result.
- Admin.ParseCsv: its own contract gives the number of records and their keys; the contents follow from Admin.ParseCsvLines with the Records lemmas.
- Admin.Imported: its own contract gives the number of facts and their shape; which row yields which fact is stated by Admin.ImportedConcat and Admin.ImportedSingle.
- Admin.ProcessBulkData: its own contract gives the kept prefix, the number appended and their shape; the appended facts are fixed by Admin.ProcessInBatches and Admin.ProcessOneRow.
- Seqs.Surviving: its own contract gives the bound, the origin of each row and the case with no rejection; which rows survive, and in what order, is stated by Seqs.SurvivingConcat and Seqs.SurvivingSingle, which together fix every result.
- BulkUpload.Rows: its own contract gives the bound; which line yields which row is stated by BulkUpload.RowsConcat and BulkUpload.RowsSingle.
- Api.BulkUpload: the handler never observes an insert's outcome, since `stmt.run` has no callback and `res.json` runs in the same `end` handler that queues the inserts (index.js:197-215); which inserts the database rejects is the parameter `failed`, and the reply counts every kept record whether or not it was stored.
- Admin.SaveFact: editing an id that is no longer present throws in the code (`findFactById` returns undefined); the model returns an error and writes nothing.

Behaviour of the code a reader may not expect, which the model keeps:

- A reset written by the quota check stays written when the fetch then fails, rather than the whole delivery being all-or-nothing (Quota.Deliver).
- background.js never reads the pause record, so a pause does not stop scheduled delivery; only the popup shows it.
- database-manager.js trims a field before removing double quotes, while bulk-upload.js removes them before trimming, so `" a"` keeps its blank on the admin page and loses it in the endpoint (Admin.QuotedBlankKept, BulkUpload.QuotedBlankLost).
- index.js tests the text cell before trimming it, so a text of blanks is stored empty (Api.BlankTextStored).

## Findings

| source | as written | input that shows it | evidently intended | confidence | as-written member | corrected member |
|---|---|---|---|---|---|---|
| database-manager.js:121 | the success message counts every parsed row, `data.length` | one CSV row whose text cell is empty: nothing is imported, yet the message says "Successfully imported 1 facts!" | report the number of facts actually added | not executed | Admin.ImportMessageAsWritten, Admin.ImportMessageOvercounts | Admin.ImportMessage, Admin.ImportMessageCountsAdded |

=== FILE: admin.dfy ===
/** The admin page's fact database (database-manager.js): CSV import, the
    search filter, adding and editing a fact, hiding, deleting and the
    counters shown above the list. */
module Admin {
  import opened Wrappers
  import opened Storage
  import Text
  import Seqs
  import Catalog

  // ---------------------------------------------------------------- CSV

  /** A parsed CSV record: header name to field value. */
  type Row = map<string, string>

  /** A header cell: trimmed and lower-cased. */
  function Headers(line: string): (headers: seq<string>)
    ensures |headers| == Text.Occurrences(line, ',') + 1
    ensures forall i :: 0 <= i < |headers| ==> ',' !in headers[i]
  {
    var parts := Text.Split(line, ',');
    Text.SplitCount(line, ',');
    seq(|parts|, i requires 0 <= i < |parts| => Text.ToLower(Text.Trim(parts[i])))
  }

  /** The field in column `k`: trimmed, then every double quote removed; a
      missing column gives the empty string. */
  function Field(values: seq<string>, k: nat): (v: string)
    ensures '"' !in v
    ensures k >= |values| ==> v == []
  {
    if k < |values| then Text.RemoveAll(Text.Trim(values[k]), '"') else []
  }

  /** A field without quotes is its trimmed cell. */
  lemma UnquotedField(values: seq<string>, k: nat)
    requires k < |values| && '"' !in values[k]
    ensures Field(values, k) == Text.Trim(values[k])
  {
    Text.TrimKeepsAbsent(values[k], '"');
    Text.RemoveAbsent(Text.Trim(values[k]), '"');
  }

  /** A quoted field reads as what is between the quotes without its
      quotes: the trim comes first, so blanks inside the quotes are kept. */
  lemma QuotedField(values: seq<string>, k: nat, x: string)
    requires k < |values| && values[k] == "\"" + x + "\""
    ensures Field(values, k) == Text.RemoveAll(x, '"')
  {
    var q := values[k];
    assert !Text.IsSpace('"');
    Text.TrimmedByEnds(q);
    Text.RemoveEnclosing(x, '"');
    assert q == ['"'] + x + ['"'];
  }

  /** `" a"` on the admin page reads as ` a`. */
  lemma QuotedBlankKept()
    ensures Field(["\" a\""], 0) == " a"
  {
    QuotedField(["\" a\""], 0, " a");
    Text.RemoveAbsent(" a", '"');
  }

  /** The distinct names of a header list. */
  function Names(keys: seq<string>): set<string> {
    set h | h in keys
  }

  /** Keys paired with values by position; a key that repeats keeps the
      value of its last position, as repeated assignments to one property
      do. */
  function Assign<V>(keys: seq<string>, vals: seq<V>): (m: map<string, V>)
    requires |keys| == |vals|
    ensures m.Keys == Names(keys)
    ensures forall h :: h in m ==> m[h] in vals
    decreases |keys|
  {
    if |keys| == 0 then map[]
    else
      var n := |keys| - 1;
      assert keys == keys[..n] + [keys[n]];
      Assign(keys[..n], vals[..n])[keys[n] := vals[n]]
  }

  /** A key that does not occur again further right gets the value at its
      own position. */
  lemma {:induction false} AssignAt<V>(keys: seq<string>, vals: seq<V>, k: nat)
    requires |keys| == |vals| && k < |keys|
    requires forall j :: k < j < |keys| ==> keys[j] != keys[k]
    ensures keys[k] in Assign(keys, vals) && Assign(keys, vals)[keys[k]] == vals[k]
    decreases |keys|
  {
    var n := |keys| - 1;
    if k < n {
      AssignAt(keys[..n], vals[..n], k);
    }
  }

  /** The fields of one data line, one per header column. */
  function Fields(headers: seq<string>, values: seq<string>): (fs: seq<string>)
    ensures |fs| == |headers|
    ensures forall k :: 0 <= k < |fs| ==> fs[k] == Field(values, k)
  {
    seq(|headers|, k requires 0 <= k < |headers| => Field(values, k))
  }

  /** The record of one data line: every header gets the field in its own
      column, and a header that repeats keeps its last column's field. */
  function Record(headers: seq<string>, values: seq<string>): (row: Row)
    ensures row.Keys == Names(headers)
    ensures forall h :: h in row ==> '"' !in row[h]
  {
    Assign(headers, Fields(headers, values))
  }

  /** A header that does not occur again further right reads the field in
      its own column. */
  lemma RecordField(headers: seq<string>, values: seq<string>, k: nat)
    requires k < |headers|
    requires forall j :: k < j < |headers| ==> headers[j] != headers[k]
    ensures headers[k] in Record(headers, values)
    ensures Record(headers, values)[headers[k]] == Field(values, k)
  {
    AssignAt(headers, Fields(headers, values), k);
  }

  /** A line the import reads: one that is not blank. */
  predicate IsDataLine(line: string) {
    Text.Trim(line) != []
  }

  /** The record a line gives: none for a blank line, otherwise the
      record of its comma-separated fields. */
  function LineRecord(headers: seq<string>): string -> seq<Row> {
    line => if IsDataLine(line) then [Record(headers, Text.Split(line, ','))] else []
  }

  /** The records of the non-blank lines, in order. */
  function Records(headers: seq<string>, lines: seq<string>): (rows: seq<Row>)
    ensures |rows| == Seqs.CountWhere(IsDataLine, lines)
    ensures forall i :: 0 <= i < |rows| ==> rows[i].Keys == Names(headers)
  {
    RecordsShape(headers, lines);
    Seqs.FlatMap(LineRecord(headers), lines)
  }

  /** A line gives one record exactly when it is not blank, keyed by the
      headers. */
  lemma LineRecordShape(headers: seq<string>, line: string)
    ensures |LineRecord(headers)(line)| == if IsDataLine(line) then 1 else 0
    ensures forall r :: r in LineRecord(headers)(line) ==> r.Keys == Names(headers)
  {
  }

  lemma RecordsShape(headers: seq<string>, lines: seq<string>)
    ensures var rows := Seqs.FlatMap(LineRecord(headers), lines);
            && |rows| == Seqs.CountWhere(IsDataLine, lines)
            && forall i :: 0 <= i < |rows| ==> rows[i].Keys == Names(headers)
  {
    var f := LineRecord(headers);
    var keyed := (r: Row) => r.Keys == Names(headers);
    forall i | 0 <= i < |lines|
      ensures |f(lines[i])| == if IsDataLine(lines[i]) then 1 else 0
      ensures forall y :: y in f(lines[i]) ==> keyed(y)
    {
      LineRecordShape(headers, lines[i]);
    }
    Seqs.FlatMapCount(f, IsDataLine, lines);
    Seqs.FlatMapAll(f, keyed, lines);
    var rows := Seqs.FlatMap(f, lines);
    assert forall i :: 0 <= i < |rows| ==> rows[i] in rows;
  }

  /** Lines are read one at a time: the records of two runs of lines are
      the records of the first followed by those of the second. */
  lemma RecordsConcat(headers: seq<string>, a: seq<string>, b: seq<string>)
    ensures Records(headers, a + b) == Records(headers, a) + Records(headers, b)
  {
    Seqs.FlatMapConcat(LineRecord(headers), a, b);
  }

  /** A blank line gives no record; any other line gives the record of its
      comma-separated fields. */
  lemma RecordsSingle(headers: seq<string>, line: string)
    ensures Records(headers, [line])
              == if IsDataLine(line) then [Record(headers, Text.Split(line, ','))] else []
  {
    assert [line][1..] == [];
  }

  /** `parseCSV`: the first line names the columns and every later line
      that is not blank becomes one record keyed by those names. Quoting is
      not understood: a quoted comma still separates fields and the quotes
      themselves are dropped. */
  function ParseCsv(csv: string): (rows: seq<Row>)
    ensures var lines := Text.Split(csv, '\n');
            && |rows| == Seqs.CountWhere(IsDataLine, lines[1..])
            && forall i :: 0 <= i < |rows| ==> rows[i].Keys == Names(Headers(lines[0]))
  {
    var lines := Text.Split(csv, '\n');
    Records(Headers(lines[0]), lines[1..])
  }

  /** The file's first line names the columns and the lines after it are
      read as records under those names. */
  lemma ParseCsvLines(head: string, body: string)
    requires '\n' !in head
    ensures ParseCsv(head + "\n" + body) == Records(Headers(head), Text.Split(body, '\n'))
  {
    Text.SplitAtSeparator(head, body, '\n');
    assert head + "\n" + body == head + ['\n'] + body;
  }

  /** Header names already trimmed and lower-cased, joined with commas,
      read back as themselves. */
  lemma HeadersRoundTrip(headers: seq<string>)
    requires |headers| >= 1
    requires forall i :: 0 <= i < |headers| ==>
               ',' !in headers[i] && Text.ToLower(Text.Trim(headers[i])) == headers[i]
    ensures Headers(Text.Join(headers, ',')) == headers
  {
    Text.SplitJoin(headers, ',');
  }

  /** A line whose first value starts with a non-blank character is read. */
  lemma JoinedLineIsData(values: seq<string>)
    requires |values| >= 1 && values[0] != [] && Text.Trim(values[0]) == values[0]
    ensures IsDataLine(Text.Join(values, ','))
  {
    var line := Text.Join(values, ',');
    Text.TrimIsSlice(values[0]);
    Text.JoinStartsWithFirst(values, ',');
    assert line[0] == line[..|values[0]|][0] == values[0][0];
    Text.TrimEmptyIffBlank(line);
  }

  /** Distinct headers over values that hold no quote and are already
      trimmed read each value under its own header. */
  lemma RecordReadsValues(headers: seq<string>, values: seq<string>)
    requires |headers| == |values| >= 1
    requires forall i, j :: 0 <= i < j < |headers| ==> headers[i] != headers[j]
    requires forall i :: 0 <= i < |values| ==>
               '"' !in values[i] && Text.Trim(values[i]) == values[i]
    ensures var row := Record(headers, values);
            forall k :: 0 <= k < |headers| ==> headers[k] in row && row[headers[k]] == values[k]
  {
    forall k | 0 <= k < |headers|
      ensures headers[k] in Record(headers, values) && Record(headers, values)[headers[k]] == values[k]
    {
      RecordField(headers, values, k);
      Text.RemoveAbsent(values[k], '"');
    }
  }

  /** A file of one header line and one data line, neither holding a comma,
      newline or double quote inside a cell, with distinct lower-case
      trimmed headers and trimmed values, reads back as one record mapping
      each header to the value written under it. */
  lemma CsvRoundTrip(headers: seq<string>, values: seq<string>)
    requires |headers| == |values| >= 1
    requires forall i, j :: 0 <= i < j < |headers| ==> headers[i] != headers[j]
    requires forall i :: 0 <= i < |headers| ==>
               && ',' !in headers[i] && '\n' !in headers[i]
               && Text.ToLower(Text.Trim(headers[i])) == headers[i]
    requires forall i :: 0 <= i < |values| ==>
               && ',' !in values[i] && '\n' !in values[i] && '"' !in values[i]
               && Text.Trim(values[i]) == values[i]
    requires values[0] != []
    ensures var rows := ParseCsv(Text.Join(headers, ',') + "\n" + Text.Join(values, ','));
            && |rows| == 1
            && forall k :: 0 <= k < |headers| ==> headers[k] in rows[0] && rows[0][headers[k]] == values[k]
  {
    var head := Text.Join(headers, ',');
    var line := Text.Join(values, ',');
    Text.JoinAvoids(headers, ',', '\n');
    Text.JoinAvoids(values, ',', '\n');
    JoinedLineIsData(values);
    OneRecord(head, line);
    HeadersRoundTrip(headers);
    Text.SplitJoin(values, ',');
    RecordReadsValues(headers, values);
  }

  /** A header line and one data line parse to that line's record. */
  lemma OneRecord(head: string, line: string)
    requires '\n' !in head && '\n' !in line && IsDataLine(line)
    ensures ParseCsv(head + "\n" + line) == [Record(Headers(head), Text.Split(line, ','))]
  {
    ParseCsvLines(head, line);
    Text.SplitWithoutSeparator(line, '\n');
    RecordsSingle(Headers(head), line);
  }

  // ------------------------------------------------------------- import

  function Lookup(row: Row, key: string): Option<string> {
    if key in row then Some(row[key]) else None
  }

  /** A row the import keeps: a non-empty "text" or "fact" column. */
  predicate HasText(row: Row) {
    ("text" in row && row["text"] != []) || ("fact" in row && row["fact"] != [])
  }

  /** The fact built from a kept row: "text" preferred over "fact", the
      category normalised, an empty source dropped, tags split on ";",
      stamped `now` and visible. */
  function ImportedFact(row: Row, id: string, now: int): (f: Fact)
    requires HasText(row)
    ensures f.id == id && f.dateAdded == now && !f.hidden
    ensures f.text != []
    ensures "text" in row && row["text"] != [] ==> f.text == row["text"]
    ensures ("text" !in row || row["text"] == []) ==> f.text == row["fact"]
    ensures f.category in Catalog.ValidCategories
    ensures f.category == Catalog.NormalizeCategory(Lookup(row, "category"))
    ensures f.tags == Catalog.Tags(Lookup(row, "tags"))
    ensures f.source.Some? <==> "source" in row && row["source"] != []
    ensures f.source.Some? ==> f.source.value == row["source"]
  {
    var text := if "text" in row && row["text"] != [] then row["text"] else row["fact"];
    var source := if "source" in row && row["source"] != [] then Some(row["source"]) else None;
    Fact(id, text, Catalog.NormalizeCategory(Lookup(row, "category")), source,
         Catalog.Tags(Lookup(row, "tags")), now, false)
  }

  /** The fact a row adds with the id drawn for it: none for a row
      without text. */
  function ImportOne(now: int): (Row, string) -> seq<Fact> {
    (row, id) => if HasText(row) then [ImportedFact(row, id, now)] else []
  }

  /** What the import promises of every fact it adds. */
  predicate WellImported(f: Fact, ids: seq<string>, now: int) {
    f.text != [] && !f.hidden && f.dateAdded == now && f.category in Catalog.ValidCategories && f.id in ids
  }

  /** The facts a batch of rows adds; `ids[i]` is the fresh id drawn for
      row `i`. */
  function Imported(data: seq<Row>, ids: seq<string>, now: int): (added: seq<Fact>)
    requires |ids| == |data|
    ensures |added| == Seqs.CountWhere(HasText, data)
    ensures forall i :: 0 <= i < |added| ==>
              && added[i].text != [] && !added[i].hidden && added[i].dateAdded == now
              && added[i].category in Catalog.ValidCategories
              && added[i].id in ids
  {
    ImportedShape(data, ids, now);
    Seqs.FlatMap2(ImportOne(now), data, ids)
  }

  lemma ImportedShape(data: seq<Row>, ids: seq<string>, now: int)
    requires |ids| == |data|
    ensures var added := Seqs.FlatMap2(ImportOne(now), data, ids);
            && |added| == Seqs.CountWhere(HasText, data)
            && forall i :: 0 <= i < |added| ==> WellImported(added[i], ids, now)
  {
    var f := ImportOne(now);
    var good := (x: Fact) => WellImported(x, ids, now);
    forall i | 0 <= i < |data|
      ensures |f(data[i], ids[i])| == if HasText(data[i]) then 1 else 0
      ensures forall y :: y in f(data[i], ids[i]) ==> good(y)
    {
      assert ids[i] in ids;
    }
    Seqs.FlatMap2Count(f, HasText, data, ids);
    Seqs.FlatMap2All(f, good, data, ids);
    var added := Seqs.FlatMap2(f, data, ids);
    assert forall i :: 0 <= i < |added| ==> added[i] in added;
  }

  /** Rows are imported one at a time: importing two batches gives the
      facts of the first followed by those of the second. */
  lemma ImportedConcat(a: seq<Row>, ia: seq<string>, b: seq<Row>, ib: seq<string>, now: int)
    requires |ia| == |a| && |ib| == |b|
    ensures Imported(a + b, ia + ib, now) == Imported(a, ia, now) + Imported(b, ib, now)
  {
    Seqs.FlatMap2Concat(ImportOne(now), a, ia, b, ib);
  }

  /** A row with text gives its fact, stamped with its id; any other row
      gives nothing. */
  lemma ImportedSingle(row: Row, id: string, now: int)
    ensures Imported([row], [id], now) == if HasText(row) then [ImportedFact(row, id, now)] else []
  {
    assert [row][1..] == [] && [id][1..] == [];
  }

  /** `processBulkData`: the kept rows are appended after the existing
      facts, which stay as they were. */
  function ProcessBulkData(facts: seq<Fact>, data: seq<Row>, ids: seq<string>, now: int): (r: seq<Fact>)
    requires |ids| == |data|
    ensures |r| == |facts| + Seqs.CountWhere(HasText, data)
    ensures r[..|facts|] == facts
    ensures forall i :: |facts| <= i < |r| ==> r[i].text != [] && !r[i].hidden && r[i].id in ids
  {
    facts + Imported(data, ids, now)
  }

  /** Importing two batches one after the other gives the same database as
      importing them together. */
  lemma ProcessInBatches(facts: seq<Fact>, a: seq<Row>, ia: seq<string>, b: seq<Row>, ib: seq<string>, now: int)
    requires |ia| == |a| && |ib| == |b|
    ensures ProcessBulkData(facts, a + b, ia + ib, now)
              == ProcessBulkData(ProcessBulkData(facts, a, ia, now), b, ib, now)
  {
    ImportedConcat(a, ia, b, ib, now);
  }

  /** One row adds its fact at the end when it has text, and nothing
      otherwise. */
  lemma ProcessOneRow(facts: seq<Fact>, row: Row, id: string, now: int)
    ensures ProcessBulkData(facts, [row], [id], now)
              == facts + if HasText(row) then [ImportedFact(row, id, now)] else []
  {
    ImportedSingle(row, id, now);
  }

  /** Every row that carries text is imported, and nothing else is. */
  lemma {:induction false} ImportKeepsExactlyTextRows(data: seq<Row>, ids: seq<string>, now: int)
    requires |ids| == |data|
    ensures |Imported(data, ids, now)| == |data| <==> forall i :: 0 <= i < |data| ==> HasText(data[i])
  {
    var lacksText := (row: Row) => !HasText(row);
    Seqs.CountComplement(HasText, lacksText, data);
    if forall i :: 0 <= i < |data| ==> HasText(data[i]) {
      Seqs.FilterKeepsAll(HasText, data);
    } else {
      var i :| 0 <= i < |data| && !HasText(data[i]);
      assert data[i] in Seqs.Filter(lacksText, data);
    }
  }

  /** The message shown after an import, as written: it counts every
      parsed row. */
  function ImportMessageAsWritten(data: seq<Row>): (m: string)
    ensures m == ImportMessage(data) <==> forall i :: 0 <= i < |data| ==> HasText(data[i])
  {
    var n := Seqs.CountWhere(HasText, data);
    var m := Message(|data|);
    Seqs.CountAll(HasText, data);
    assert m == Message(n) ==> |data| == n by {
      if m == Message(n) { MessageInjective(|data|, n); }
    }
    m
  }

  /** The message with the count of facts the import actually added. */
  function ImportMessage(data: seq<Row>): string {
    Message(Seqs.CountWhere(HasText, data))
  }

  /** The import's success message for a count. */
  function Message(n: nat): string {
    "Successfully imported " + Text.Decimal(n) + " facts!"
  }

  /** Different counts give different messages. */
  lemma MessageInjective(n: nat, k: nat)
    requires Message(n) == Message(k)
    ensures n == k
  {
    var pre := "Successfully imported ";
    var dn := Text.Decimal(n);
    var dk := Text.Decimal(k);
    assert |dn| == |dk|;
    assert dn == Message(n)[|pre|..|pre| + |dn|];
    assert dk == Message(k)[|pre|..|pre| + |dk|];
    Text.ParseIntDecimal(n);
    Text.ParseIntDecimal(k);
  }

  /** The corrected message reports exactly how many facts were appended. */
  lemma ImportMessageCountsAdded(facts: seq<Fact>, data: seq<Row>, ids: seq<string>, now: int)
    requires |ids| == |data|
    ensures var n := |ProcessBulkData(facts, data, ids, now)| - |facts|;
            && n >= 0
            && ImportMessage(data) == "Successfully imported " + Text.Decimal(n) + " facts!"
  {
  }

  /** A row whose text cell is empty is parsed but not imported, yet the
      message as written counts it. */
  lemma ImportMessageOvercounts()
    ensures var data: seq<Row> := [map["text" := ""]];
            && |ProcessBulkData([], data, ["x"], 0)| == 0
            && ImportMessageAsWritten(data) == "Successfully imported 1 facts!"
            && ImportMessage(data) == "Successfully imported 0 facts!"
  {
    var data: seq<Row> := [map["text" := ""]];
    assert !HasText(data[0]);
    assert Seqs.Filter(HasText, data) == [];
    assert Text.Decimal(1) == "1";
    assert Text.Decimal(0) == "0";
  }

  // ------------------------------------------------------------- filter

  /** The list's three filters: the search box, the category drop-down
      ("" for any) and the status drop-down ("", "visible" or "hidden"). */
  datatype Query = Query(search: string, category: string, status: string)

  const AnyFilter: Query := Query("", "", "")

  /** The search term, lower-cased, occurs in the text, the category, a
      non-empty source or one of the tags, each lower-cased. */
  predicate MatchesSearch(f: Fact, search: string) {
    var term := Text.ToLower(search);
    || Text.Includes(Text.ToLower(f.text), term)
    || Text.Includes(Text.ToLower(f.category), term)
    || (f.source.Some? && f.source.value != [] && Text.Includes(Text.ToLower(f.source.value), term))
    || (exists i :: 0 <= i < |f.tags| && Text.Includes(Text.ToLower(f.tags[i]), term))
  }

  predicate MatchesStatus(f: Fact, status: string) {
    status == [] || (status == "visible" && !f.hidden) || (status == "hidden" && f.hidden)
  }

  predicate Matches(q: Query, f: Fact) {
    && MatchesSearch(f, q.search)
    && (q.category == [] || f.category == q.category)
    && MatchesStatus(f, q.status)
  }

  /** `filterFacts`: the facts the list shows, in database order. */
  function FilterFacts(facts: seq<Fact>, q: Query): (shown: seq<Fact>)
    ensures |shown| <= |facts|
    ensures forall f :: f in shown <==> f in facts && Matches(q, f)
  {
    Seqs.Filter(f => Matches(q, f), facts)
  }

  /** With every filter empty the whole database is listed. */
  lemma EmptyFiltersShowAll(facts: seq<Fact>)
    ensures FilterFacts(facts, AnyFilter) == facts
  {
    forall i | 0 <= i < |facts| ensures Matches(AnyFilter, facts[i]) {
      Text.IncludesEmpty(Text.ToLower(facts[i].text));
    }
    Seqs.FilterKeepsAll(f => Matches(AnyFilter, f), facts);
  }

  /** For the same search and category, the "visible" and "hidden"
      listings split the unrestricted listing between them. */
  lemma {:induction false} StatusPartition(facts: seq<Fact>, search: string, category: string)
    ensures |FilterFacts(facts, Query(search, category, "visible"))|
          + |FilterFacts(facts, Query(search, category, "hidden"))|
         == |FilterFacts(facts, Query(search, category, ""))|
  {
    if |facts| > 0 {
      StatusPartition(facts[1..], search, category);
    }
  }

  /** A status the drop-down does not offer lists nothing. */
  lemma UnknownStatusShowsNothing(facts: seq<Fact>, q: Query)
    requires q.status !in {"", "visible", "hidden"}
    ensures FilterFacts(facts, q) == []
  {
    Seqs.FilterKeepsNone(f => Matches(q, f), facts);
  }

  // ------------------------------------------------------ add and edit

  /** The fact form's four inputs as typed. */
  datatype Form = Form(text: string, category: string, source: string, tags: string)

  const RequiredFieldsMessage: string := "Please fill in all required fields."

  /** The tags input: trimmed, split on "," and each piece trimmed; a blank
      input gives no tags. */
  function FormTags(raw: string): (tags: seq<string>)
    ensures Text.AllSpace(raw) ==> tags == []
    ensures !Text.AllSpace(raw) ==> |tags| == Text.Occurrences(Text.Trim(raw), ',') + 1
    ensures forall i :: 0 <= i < |tags| ==> ',' !in tags[i]
  {
    var t := Text.Trim(raw);
    Text.TrimEmptyIffBlank(raw);
    if t == [] then []
    else
      var parts := Text.Split(t, ',');
      Text.SplitCount(t, ',');
      var tags := seq(|parts|, i requires 0 <= i < |parts| => Text.Trim(parts[i]));
      assert forall i :: 0 <= i < |tags| ==> ',' !in tags[i] by {
        forall i | 0 <= i < |tags| ensures ',' !in tags[i] {
          Text.TrimKeepsAbsent(parts[i], ',');
        }
      }
      tags
  }

  /** The position of the first fact with this id, or the length when none
      has it. */
  function FindIndex(facts: seq<Fact>, id: string): (i: nat)
    ensures i <= |facts|
    ensures i < |facts| ==> facts[i].id == id
    ensures forall j :: 0 <= j < i ==> facts[j].id != id
  {
    if |facts| == 0 then 0
    else if facts[0].id == id then 0
    else 1 + FindIndex(facts[1..], id)
  }

  /** The lookup finds a fact exactly when one has the id. */
  lemma FindIndexFound(facts: seq<Fact>, id: string)
    ensures FindIndex(facts, id) < |facts| <==> exists j :: 0 <= j < |facts| && facts[j].id == id
  {
  }

  /** The source input: trimmed, and dropped when blank. */
  function FormSource(raw: string): (source: Option<string>)
    ensures source.None? <==> Text.AllSpace(raw)
    ensures source.Some? ==> source.value == Text.Trim(raw) && source.value != []
  {
    Text.TrimEmptyIffBlank(raw);
    if Text.Trim(raw) == [] then None else Some(Text.Trim(raw))
  }

  /** The form's values under the given id, date added and visibility. */
  function FromForm(form: Form, id: string, dateAdded: int, hidden: bool): (f: Fact)
    ensures f.id == id && f.dateAdded == dateAdded && f.hidden == hidden
    ensures Holds(f, form)
  {
    Fact(id, Text.Trim(form.text), form.category, FormSource(form.source), FormTags(form.tags), dateAdded, hidden)
  }

  /** The form's values are what the saved fact holds. */
  predicate Holds(f: Fact, form: Form) {
    && f.text == Text.Trim(form.text)
    && f.category == form.category
    && f.source == FormSource(form.source)
    && f.tags == FormTags(form.tags)
  }

  /** `saveFact`: with no fact being edited, the form becomes a new visible
      fact with a fresh id stamped `now`; when editing, the first fact with
      that id takes the form's values and keeps its id, date added and
      visibility. An empty text or category is refused, and an edited id
      that is no longer in the database is an error. */
  function SaveFact(facts: seq<Fact>, editing: Option<string>, form: Form, newId: string, now: int)
    : (r: Result<seq<Fact>>)
    ensures r.Err? <==>
              || Text.AllSpace(form.text) || form.category == []
              || (editing.Some? && forall j :: 0 <= j < |facts| ==> facts[j].id != editing.value)
    ensures (Text.AllSpace(form.text) || form.category == []) ==> r == Err(RequiredFieldsMessage)
    ensures r.Ok? && editing.None? ==>
              && |r.value| == |facts| + 1
              && r.value[..|facts|] == facts
              && var f := r.value[|facts|];
                 f.id == newId && f.dateAdded == now && !f.hidden && Holds(f, form)
    ensures r.Ok? && editing.Some? ==>
              && |r.value| == |facts|
              && var k := FindIndex(facts, editing.value);
                 && k < |facts|
                 && (forall j :: 0 <= j < |facts| && j != k ==> r.value[j] == facts[j])
                 && r.value[k].id == facts[k].id
                 && r.value[k].dateAdded == facts[k].dateAdded
                 && r.value[k].hidden == facts[k].hidden
                 && Holds(r.value[k], form)
  {
    Text.TrimEmptyIffBlank(form.text);
    if Text.Trim(form.text) == [] || form.category == [] then Err(RequiredFieldsMessage)
    else if editing.None? then Ok(Appended(facts, form, newId, now))
    else
      var k := FindIndex(facts, editing.value);
      FindIndexFound(facts, editing.value);
      if k == |facts| then Err("the fact being edited is not in the database")
      else Ok(Replaced(facts, k, form))
  }

  /** The add branch: the form becomes a new visible fact at the end. */
  function Appended(facts: seq<Fact>, form: Form, newId: string, now: int): (r: seq<Fact>)
    ensures |r| == |facts| + 1 && r[..|facts|] == facts
    ensures r[|facts|].id == newId && r[|facts|].dateAdded == now && !r[|facts|].hidden
    ensures Holds(r[|facts|], form)
  {
    facts + [FromForm(form, newId, now, false)]
  }

  /** The edit branch: the fact at `k` takes the form's values and keeps its
      id, date added and visibility; every other fact stays. */
  function Replaced(facts: seq<Fact>, k: nat, form: Form): (r: seq<Fact>)
    requires k < |facts|
    ensures |r| == |facts|
    ensures forall j :: 0 <= j < |facts| && j != k ==> r[j] == facts[j]
    ensures r[k].id == facts[k].id && r[k].dateAdded == facts[k].dateAdded && r[k].hidden == facts[k].hidden
    ensures Holds(r[k], form)
  {
    facts[k := FromForm(form, facts[k].id, facts[k].dateAdded, facts[k].hidden)]
  }

  /** Saving the same form over a fact twice is the same as saving it once. */
  lemma EditIdempotent(facts: seq<Fact>, id: string, form: Form, newId: string, now: int)
    requires SaveFact(facts, Some(id), form, newId, now).Ok?
    ensures var once := SaveFact(facts, Some(id), form, newId, now).value;
            SaveFact(once, Some(id), form, newId, now) == Ok(once)
  {
    var once := SaveFact(facts, Some(id), form, newId, now).value;
    var k := FindIndex(facts, id);
    var f := FromForm(form, facts[k].id, facts[k].dateAdded, facts[k].hidden);
    EditAt(facts, id, form, newId, now);
    assert once == facts[k := f];
    FindIndexFirst(once, id, k);
    EditAt(once, id, form, newId, now);
    assert FromForm(form, once[k].id, once[k].dateAdded, once[k].hidden) == f;
    assert once[k := f] == once;
  }

  /** An accepted edit replaces the first fact with the id by the form's
      values under that fact's id, date added and visibility. */
  lemma EditAt(facts: seq<Fact>, id: string, form: Form, newId: string, now: int)
    requires !Text.AllSpace(form.text) && form.category != []
    requires FindIndex(facts, id) < |facts|
    ensures var k := FindIndex(facts, id);
            SaveFact(facts, Some(id), form, newId, now)
              == Ok(facts[k := FromForm(form, facts[k].id, facts[k].dateAdded, facts[k].hidden)])
  {
    Text.TrimEmptyIffBlank(form.text);
  }

  /** The lookup returns the first position holding the id. */
  lemma {:induction false} FindIndexFirst(facts: seq<Fact>, id: string, k: nat)
    requires k < |facts| && facts[k].id == id
    requires forall j :: 0 <= j < k ==> facts[j].id != id
    ensures FindIndex(facts, id) == k
  {
    if k > 0 {
      FindIndexFirst(facts[1..], id, k - 1);
    }
  }

  /** Adding or editing never changes which ids the database holds, apart
      from the new fact's. */
  lemma SaveKeepsIds(facts: seq<Fact>, editing: Option<string>, form: Form, newId: string, now: int)
    requires SaveFact(facts, editing, form, newId, now).Ok?
    ensures var r := SaveFact(facts, editing, form, newId, now).value;
            forall j :: 0 <= j < |facts| ==> r[j].id == facts[j].id
  {
  }

  // ----------------------------------------------- hide, delete, counters

  /** `toggleFactVisibility`: the first fact with the id flips between
      hidden and visible; an unknown id changes nothing. */
  function ToggleVisibility(facts: seq<Fact>, id: string): (r: seq<Fact>)
    ensures |r| == |facts|
    ensures forall j :: 0 <= j < |facts| ==>
              && r[j] == facts[j].(hidden := r[j].hidden)
              && (r[j].hidden != facts[j].hidden <==> j == FindIndex(facts, id))
    ensures FindIndex(facts, id) == |facts| ==> r == facts
  {
    var k := FindIndex(facts, id);
    if k == |facts| then facts else facts[k := facts[k].(hidden := !facts[k].hidden)]
  }

  /** Toggling twice restores the database. */
  lemma ToggleTwice(facts: seq<Fact>, id: string)
    ensures ToggleVisibility(ToggleVisibility(facts, id), id) == facts
  {
    var k := FindIndex(facts, id);
    if k < |facts| {
      FindIndexFirst(ToggleVisibility(facts, id), id, k);
    }
  }

  /** `deleteFact`: once confirmed, every fact with the id is removed and
      the others keep their order; without confirmation nothing changes. */
  function DeleteFact(facts: seq<Fact>, id: string, confirmed: bool): (r: seq<Fact>)
    ensures forall f :: f in r <==> f in facts && (confirmed ==> f.id != id)
    ensures !confirmed ==> r == facts
  {
    if confirmed then Seqs.Filter((f: Fact) => f.id != id, facts) else facts
  }

  /** A delete keeps the order of what it keeps: deleting from two runs of
      facts gives what is left of the first followed by what is left of
      the second. */
  lemma DeleteConcat(a: seq<Fact>, b: seq<Fact>, id: string)
    ensures DeleteFact(a + b, id, true) == DeleteFact(a, id, true) + DeleteFact(b, id, true)
  {
    Seqs.FilterConcat((f: Fact) => f.id != id, a, b);
  }

  /** A single fact goes exactly when it carries the id. */
  lemma DeleteSingle(f: Fact, id: string)
    ensures DeleteFact([f], id, true) == if f.id == id then [] else [f]
  {
    assert [f][1..] == [];
  }

  /** A confirmed delete removes exactly the facts carrying the id. */
  lemma DeleteCount(facts: seq<Fact>, id: string)
    ensures |DeleteFact(facts, id, true)| + Seqs.CountWhere((f: Fact) => f.id == id, facts) == |facts|
  {
    Seqs.CountComplement((f: Fact) => f.id == id, (f: Fact) => f.id != id, facts);
  }

  /** The counters above the list. */
  datatype Stats = Stats(total: nat, visible: nat, hidden: int, categories: nat)

  /** The distinct categories of the database. */
  function CategorySet(facts: seq<Fact>): (cs: set<string>)
    ensures |cs| <= |facts|
    ensures forall c :: c in cs <==> exists j :: 0 <= j < |facts| && facts[j].category == c
  {
    var cats := seq(|facts|, j requires 0 <= j < |facts| => facts[j].category);
    Seqs.ElementsBound(cats);
    var cs := set c | c in cats;
    assert forall c :: c in cs <==> exists j :: 0 <= j < |facts| && facts[j].category == c by {
      forall c ensures c in cs <==> exists j :: 0 <= j < |facts| && facts[j].category == c {
        if c in cs {
          var j :| 0 <= j < |cats| && cats[j] == c;
          assert facts[j].category == c;
        }
        if exists j :: 0 <= j < |facts| && facts[j].category == c {
          var j :| 0 <= j < |facts| && facts[j].category == c;
          assert cats[j] == c;
        }
      }
    }
    cs
  }

  /** `updateStats`: total, visible, hidden as the remainder, and the
      number of distinct categories. */
  function ComputeStats(facts: seq<Fact>): (st: Stats)
    ensures st.total == |facts|
    ensures st.hidden == st.total - st.visible
    ensures st.categories == |CategorySet(facts)| <= st.total
  {
    var visible := |Seqs.Filter((f: Fact) => !f.hidden, facts)|;
    Stats(|facts|, visible, |facts| - visible, |CategorySet(facts)|)
  }

  /** The visible and hidden counters are the lengths of the "visible" and
      "hidden" listings of an unfiltered search. */
  lemma StatsMatchListings(facts: seq<Fact>)
    ensures ComputeStats(facts).visible == |FilterFacts(facts, Query("", "", "visible"))|
    ensures ComputeStats(facts).hidden == |FilterFacts(facts, Query("", "", "hidden"))|
  {
    forall f: Fact ensures MatchesSearch(f, "") {
      Text.IncludesEmpty(Text.ToLower(f.text));
    }
    SameFilter((f: Fact) => !f.hidden, (f: Fact) => Matches(Query("", "", "visible"), f), facts);
    StatusPartition(facts, "", "");
    EmptyFiltersShowAll(facts);
  }

  /** Filters that agree on every element agree on the sequence. */
  lemma {:induction false} SameFilter(p: Fact -> bool, q: Fact -> bool, facts: seq<Fact>)
    requires forall f :: p(f) == q(f)
    ensures Seqs.Filter(p, facts) == Seqs.Filter(q, facts)
  {
    if |facts| > 0 {
      SameFilter(p, q, facts[1..]);
    }
  }
}

=== FILE: api.dfy ===
/** The REST API's fact handling (index.js): the query `GET /api/facts`
    builds, the mapping of table rows to the JSON it returns, the checks and
    record of `POST /api/facts`, and the row normalisation of
    `POST /api/facts/bulk`. The SQL engine itself is not modelled; a WHERE
    clause is given its meaning as a predicate over rows. */
module Api {
  import opened Wrappers
  import Text
  import Catalog
  import Seqs

  /** A row of the `facts` table. `tags` is the decoded JSON array, or
      None for a NULL column; `hidden` and `verified` are SQLite integers. */
  datatype DbRow = DbRow(
    id: string,
    text: string,
    category: string,
    source: Option<string>,
    tags: Option<seq<string>>,
    dateAdded: int,
    hidden: int,
    verified: int)

  /** A fact as the API sends it. */
  datatype ApiFact = ApiFact(
    id: string,
    text: string,
    category: string,
    source: Option<string>,
    tags: seq<string>,
    dateAdded: int,
    hidden: bool,
    verified: bool)

  /** `rows.map(...)`: a NULL tags column reads as no tags, and the two
      integer flags become booleans (any non-zero value is true). */
  function ToApiFact(row: DbRow): (f: ApiFact)
    ensures f.hidden <==> row.hidden != 0
    ensures f.verified <==> row.verified != 0
    ensures f.tags == (if row.tags.Some? then row.tags.value else [])
    ensures (f.id, f.text, f.category, f.source, f.dateAdded)
         == (row.id, row.text, row.category, row.source, row.dateAdded)
  {
    ApiFact(row.id, row.text, row.category, row.source,
            if row.tags.Some? then row.tags.value else [],
            row.dateAdded, row.hidden != 0, row.verified != 0)
  }

  // ---------------------------------------------------------- GET /facts

  /** The query string: `category` and `hidden` when present. */
  datatype FactsQuery = FactsQuery(category: Option<string>, hidden: Option<string>)

  /** One condition of the WHERE clause with its bound value. */
  datatype Condition = CategoryIs(category: string) | HiddenIs(flag: int)

  /** A value bound to a `?` placeholder. */
  datatype Param = TextParam(text: string) | IntParam(number: int)

  /** The conditions `getFacts` adds: the category when it is a non-empty
      string, then the hidden flag whenever the parameter is present, bound
      to 1 exactly for "true". */
  function Conditions(q: FactsQuery): (cs: seq<Condition>)
    ensures |cs| == (if q.category.Some? && q.category.value != [] then 1 else 0)
                  + (if q.hidden.Some? then 1 else 0)
  {
    (if q.category.Some? && q.category.value != [] then [CategoryIs(q.category.value)] else [])
    + (if q.hidden.Some? then [HiddenIs(if q.hidden.value == "true" then 1 else 0)] else [])
  }

  const SelectAll: string := "SELECT * FROM facts WHERE 1=1"
  const OrderClause: string := " ORDER BY dateAdded DESC"
  const Placeholder: string := "?"

  /** The column comparison a condition appends, up to its placeholder. */
  function Comparison(c: Condition): string {
    match c
    case CategoryIs(_) => " AND category = "
    case HiddenIs(_) => " AND hidden = "
  }

  /** `" AND category = ?"` or `" AND hidden = ?"`. */
  function Clause(c: Condition): string {
    Comparison(c) + Placeholder
  }

  function Bound(c: Condition): Param {
    match c
    case CategoryIs(category) => TextParam(category)
    case HiddenIs(flag) => IntParam(flag)
  }

  function Clauses(cs: seq<Condition>): string {
    if |cs| == 0 then [] else Clause(cs[0]) + Clauses(cs[1..])
  }

  /** The SQL text of the listing query. */
  function Sql(q: FactsQuery): string {
    SelectAll + Clauses(Conditions(q)) + OrderClause
  }

  /** The values bound to the query's placeholders, in order. */
  function Params(q: FactsQuery): (ps: seq<Param>)
    ensures |ps| == |Conditions(q)|
    ensures q.category.Some? && q.category.value != [] ==> ps[0] == TextParam(q.category.value)
    ensures q.hidden.Some? ==> ps[|ps| - 1] == IntParam(if q.hidden.value == "true" then 1 else 0)
  {
    var cs := Conditions(q);
    seq(|cs|, i requires 0 <= i < |cs| => Bound(cs[i]))
  }

  /** Every placeholder has exactly one bound value. */
  lemma PlaceholdersMatchParams(q: FactsQuery)
    ensures Text.Occurrences(Sql(q), '?') == |Params(q)|
  {
    QueryPlaceholders(Conditions(q));
  }

  /** The query text built from any conditions has one placeholder per
      condition. */
  lemma QueryPlaceholders(cs: seq<Condition>)
    ensures Text.Occurrences(SelectAll + Clauses(cs) + OrderClause, '?') == |cs|
  {
    ClausesPlaceholders(cs);
    FramePlaceholders();
    Text.OccurrencesBetween(SelectAll, Clauses(cs), OrderClause, '?');
  }

  /** The fixed parts of the query hold no placeholder. */
  lemma FramePlaceholders()
    ensures Text.Occurrences(SelectAll, '?') == 0 && Text.Occurrences(OrderClause, '?') == 0
  {
    assert '?' !in SelectAll && '?' !in OrderClause;
    Text.OccurrencesAbsent(SelectAll, '?');
    Text.OccurrencesAbsent(OrderClause, '?');
  }

  /** Each clause contributes one placeholder. */
  lemma {:induction false} ClausesPlaceholders(cs: seq<Condition>)
    ensures Text.Occurrences(Clauses(cs), '?') == |cs|
  {
    if |cs| > 0 {
      ClausesPlaceholders(cs[1..]);
      Text.OccurrencesConcat(Clause(cs[0]), Clauses(cs[1..]), '?');
      ClausePlaceholder(cs[0]);
    }
  }

  lemma ClausePlaceholder(c: Condition)
    ensures Text.Occurrences(Clause(c), '?') == 1
  {
    ComparisonPlaceholders(c);
    Text.OccurrencesConcat(Comparison(c), Placeholder, '?');
    assert Placeholder[1..] == [];
  }

  /** A column comparison holds no placeholder. */
  lemma ComparisonPlaceholders(c: Condition)
    ensures Text.Occurrences(Comparison(c), '?') == 0
  {
    assert '?' !in Comparison(c);
    Text.OccurrencesAbsent(Comparison(c), '?');
  }

  /** What a condition means for a row. */
  predicate Satisfies(row: DbRow, c: Condition) {
    match c
    case CategoryIs(category) => row.category == category
    case HiddenIs(flag) => row.hidden == flag
  }

  /** The rows the handler means to list: those in the requested category
      when one is named, and with the requested visibility when the
      parameter is present (anything but "true" asks for visible rows). */
  predicate Wanted(q: FactsQuery, row: DbRow) {
    && (q.category.Some? && q.category.value != [] ==> row.category == q.category.value)
    && (q.hidden.Some? ==> row.hidden == (if q.hidden.value == "true" then 1 else 0))
  }

  /** The WHERE clause selects exactly the wanted rows. */
  lemma ConditionsMeanWanted(q: FactsQuery, row: DbRow)
    ensures (forall i :: 0 <= i < |Conditions(q)| ==> Satisfies(row, Conditions(q)[i])) <==> Wanted(q, row)
  {
    var cs := Conditions(q);
    var c: seq<Condition> := if q.category.Some? && q.category.value != [] then [CategoryIs(q.category.value)] else [];
    var h: seq<Condition> := if q.hidden.Some? then [HiddenIs(if q.hidden.value == "true" then 1 else 0)] else [];
    assert cs == c + h;
    if q.category.Some? && q.category.value != [] {
      assert cs[0] == CategoryIs(q.category.value);
    }
    if q.hidden.Some? {
      assert cs[|cs| - 1] == HiddenIs(if q.hidden.value == "true" then 1 else 0);
    }
  }

  /** The filter of a query, as a test on rows. */
  function WantedBy(q: FactsQuery): DbRow -> bool {
    row => Wanted(q, row)
  }

  /** The facts the listing returns, in table order (the ORDER BY is not
      modelled): one per wanted row. */
  function GetFacts(table: seq<DbRow>, q: FactsQuery): (facts: seq<ApiFact>)
    ensures |facts| == Seqs.CountWhere(WantedBy(q), table) <= |table|
    ensures forall f :: f in facts ==> exists row :: row in table && Wanted(q, row) && f == ToApiFact(row)
    ensures forall row :: row in table && Wanted(q, row) ==> ToApiFact(row) in facts
  {
    var kept := Seqs.Filter(WantedBy(q), table);
    var facts := Seqs.Map(ToApiFact, kept);
    assert forall f :: f in facts ==> exists row :: row in kept && f == ToApiFact(row) by {
      forall f | f in facts ensures exists row :: row in kept && f == ToApiFact(row) {
        var i :| 0 <= i < |facts| && facts[i] == f;
        assert kept[i] in kept;
      }
    }
    assert forall row :: row in kept ==> ToApiFact(row) in facts by {
      forall row | row in kept ensures ToApiFact(row) in facts {
        var i :| 0 <= i < |kept| && kept[i] == row;
        assert facts[i] == ToApiFact(row);
      }
    }
    facts
  }

  /** Rows are listed one at a time and in table order: the listing of two
      runs of rows is that of the first followed by that of the second. */
  lemma GetFactsConcat(a: seq<DbRow>, b: seq<DbRow>, q: FactsQuery)
    ensures GetFacts(a + b, q) == GetFacts(a, q) + GetFacts(b, q)
  {
    Seqs.FilterConcat(WantedBy(q), a, b);
    Seqs.MapConcat(ToApiFact, Seqs.Filter(WantedBy(q), a), Seqs.Filter(WantedBy(q), b));
  }

  /** One row is listed exactly when it is wanted. */
  lemma GetFactsSingle(row: DbRow, q: FactsQuery)
    ensures GetFacts([row], q) == if Wanted(q, row) then [ToApiFact(row)] else []
  {
    assert [row][1..] == [];
  }

  // --------------------------------------------------------- POST /facts

  /** The JSON body of a new fact. */
  datatype NewFact = NewFact(
    text: Option<string>,
    category: Option<string>,
    source: Option<string>,
    tags: Option<seq<string>>)

  const RequiredMessage: string := "Text and category are required"

  predicate Given(v: Option<string>) {
    v.Some? && v.value != []
  }

  /** `addFact`: a body without a text or a category is refused; otherwise
      the row stores them as sent, an absent or empty source as NULL, absent
      tags as an empty list, stamped `now`, visible and verified. `id` is
      the identifier the handler draws. */
  function AddFact(body: NewFact, id: string, now: int): (r: Result<DbRow>)
    ensures r.Err? <==> !Given(body.text) || !Given(body.category)
    ensures r.Err? ==> r.message == RequiredMessage
    ensures r.Ok? ==>
              && r.value.id == id && r.value.dateAdded == now
              && r.value.text == body.text.value && r.value.category == body.category.value
              && (r.value.source.Some? <==> Given(body.source))
              && r.value.tags.Some?
              && r.value.hidden == 0 && r.value.verified == 1
  {
    if !Given(body.text) || !Given(body.category) then Err(RequiredMessage)
    else
      Ok(DbRow(id, body.text.value, body.category.value,
               if Given(body.source) then body.source else None,
               Some(if body.tags.Some? then body.tags.value else []),
               now, 0, 1))
  }

  /** A fact added through the API is listed back with what was sent: its
      text, category and tags (none when absent), visible and verified. */
  lemma AddThenRead(body: NewFact, id: string, now: int)
    requires Given(body.text) && Given(body.category)
    ensures var f := ToApiFact(AddFact(body, id, now).value);
            && f == ApiFact(id, body.text.value, body.category.value,
                            if Given(body.source) then body.source else None,
                            if body.tags.Some? then body.tags.value else [],
                            now, false, true)
            && Wanted(FactsQuery(body.category, Some("false")), AddFact(body, id, now).value)
  {
  }

  // ---------------------------------------------------- POST /facts/bulk

  /** A record read from the uploaded CSV: column name to cell. */
  type CsvRow = map<string, string>

  predicate Cell(row: CsvRow, key: string) {
    key in row && row[key] != []
  }

  function Lookup(row: CsvRow, key: string): Option<string> {
    if key in row then Some(row[key]) else None
  }

  /** A record the bulk upload keeps: a non-empty text and category cell,
      checked before the text is trimmed. */
  predicate Kept(row: CsvRow) {
    Cell(row, "text") && Cell(row, "category")
  }

  /** The row stored for a kept record. */
  function BulkRow(row: CsvRow, id: string, now: int): (r: DbRow)
    requires Kept(row)
    ensures r.text == Text.Trim(row["text"])
    ensures r.category in Catalog.ValidCategories
    ensures Text.ToLower(row["category"]) in Catalog.ValidCategories ==> r.category == Text.ToLower(row["category"])
    ensures Text.ToLower(row["category"]) !in Catalog.ValidCategories ==> r.category == Catalog.FallbackCategory
    ensures r.source.Some? <==> Cell(row, "source")
    ensures r.source.Some? ==> r.source.value == row["source"]
    ensures r.tags == Some(Catalog.Tags(Lookup(row, "tags")))
    ensures r.id == id && r.dateAdded == now && r.hidden == 0 && r.verified == 1
  {
    DbRow(id, Text.Trim(row["text"]), Catalog.NormalizeCategory(Some(row["category"])),
          if Cell(row, "source") then Some(row["source"]) else None,
          Some(Catalog.Tags(Lookup(row, "tags"))), now, 0, 1)
  }

  /** The row a record gives with the id drawn for it: none for a record
      that is not kept. */
  function StoreOne(now: int): (CsvRow, string) -> seq<DbRow> {
    (row, id) => if Kept(row) then [BulkRow(row, id, now)] else []
  }

  /** What the bulk upload promises of every row it stores. */
  predicate WellStored(r: DbRow, ids: seq<string>) {
    r.hidden == 0 && r.verified == 1 && r.category in Catalog.ValidCategories && r.id in ids
  }

  /** The rows a bulk upload stores, one per kept record in order; `ids[i]`
      is the identifier drawn for record `i`. */
  function BulkRows(rows: seq<CsvRow>, ids: seq<string>, now: int): (stored: seq<DbRow>)
    requires |ids| == |rows|
    ensures |stored| == Seqs.CountWhere(Kept, rows)
    ensures forall i :: 0 <= i < |stored| ==>
              stored[i].hidden == 0 && stored[i].verified == 1
              && stored[i].category in Catalog.ValidCategories && stored[i].id in ids
  {
    BulkRowsShape(rows, ids, now);
    Seqs.FlatMap2(StoreOne(now), rows, ids)
  }

  lemma BulkRowsShape(rows: seq<CsvRow>, ids: seq<string>, now: int)
    requires |ids| == |rows|
    ensures var stored := Seqs.FlatMap2(StoreOne(now), rows, ids);
            && |stored| == Seqs.CountWhere(Kept, rows)
            && forall i :: 0 <= i < |stored| ==> WellStored(stored[i], ids)
  {
    var f := StoreOne(now);
    var good := (x: DbRow) => WellStored(x, ids);
    forall i | 0 <= i < |rows|
      ensures |f(rows[i], ids[i])| == if Kept(rows[i]) then 1 else 0
      ensures forall y :: y in f(rows[i], ids[i]) ==> good(y)
    {
      assert ids[i] in ids;
    }
    Seqs.FlatMap2Count(f, Kept, rows, ids);
    Seqs.FlatMap2All(f, good, rows, ids);
    var stored := Seqs.FlatMap2(f, rows, ids);
    assert forall i :: 0 <= i < |stored| ==> stored[i] in stored;
  }

  /** A record survives exactly when it is kept: the upload stores one row
      per kept record. */
  lemma BulkRowsCount(rows: seq<CsvRow>, ids: seq<string>, now: int)
    requires |ids| == |rows|
    ensures |BulkRows(rows, ids, now)| == |rows| <==> forall i :: 0 <= i < |rows| ==> Kept(rows[i])
  {
    Seqs.CountAll(Kept, rows);
  }

  /** Uploading two files' records one after the other stores what one
      upload of both would: each record is handled on its own, in order. */
  lemma BulkRowsConcat(a: seq<CsvRow>, ia: seq<string>, b: seq<CsvRow>, ib: seq<string>, now: int)
    requires |ia| == |a| && |ib| == |b|
    ensures BulkRows(a + b, ia + ib, now) == BulkRows(a, ia, now) + BulkRows(b, ib, now)
  {
    Seqs.FlatMap2Concat(StoreOne(now), a, ia, b, ib);
  }

  /** One record is stored as its row when it is kept, and not at all
      otherwise. */
  lemma BulkRowsSingle(row: CsvRow, id: string, now: int)
    ensures BulkRows([row], [id], now) == if Kept(row) then [BulkRow(row, id, now)] else []
  {
    assert [row][1..] == [] && [id][1..] == [];
  }

  /** The reply of the bulk upload. */
  datatype BulkReply = NoFile | Imported(count: nat)

  const NoFileMessage: string := "No file uploaded"

  /** `bulkUpload`: without a file the request is refused; otherwise the
      kept records are inserted and their number reported. The handler
      never observes an insert's outcome: the inserts are queued without a
      callback and the reply is sent from the same handler, so which
      inserts the database rejects is the parameter `failed`, and the
      reply counts every kept record. */
  function BulkUpload(file: Option<seq<CsvRow>>, table: seq<DbRow>, ids: seq<string>, now: int, failed: set<nat>)
    : (r: (BulkReply, seq<DbRow>))
    requires file.Some? ==> |ids| == |file.value|
    ensures file.None? <==> r.0 == NoFile
    ensures file.None? ==> r.1 == table
    ensures |r.1| >= |table| && r.1[..|table|] == table
    ensures file.Some? ==>
              && r.0 == Imported(Seqs.CountWhere(Kept, file.value))
              && |r.1| - |table| <= r.0.count
              && forall x :: x in r.1[|table|..] ==> x in BulkRows(file.value, ids, now)
    ensures file.Some? && failed == {} ==> r.1 == table + BulkRows(file.value, ids, now)
  {
    if file.None? then (NoFile, table)
    else
      var stored := BulkRows(file.value, ids, now);
      var written := Seqs.Surviving(stored, failed, 0);
      assert (table + written)[..|table|] == table;
      assert (table + written)[|table|..] == written;
      (Imported(|stored|), table + written)
  }

  /** Whitespace in the text cell passes the keep test and is then trimmed
      away, so a blank text is stored. */
  lemma BlankTextStored(row: CsvRow, id: string, now: int)
    requires Cell(row, "text") && Text.AllSpace(row["text"]) && Cell(row, "category")
    ensures Kept(row) && BulkRow(row, id, now).text == []
  {
    Text.TrimEmptyIffBlank(row["text"]);
  }
}

=== FILE: catalog.dfy ===
/** The category whitelist and tag splitting shared by the admin page's
    import (database-manager.js `processBulkData`) and the API's bulk upload
    (index.js `bulkUpload`), which carry identical copies of both. */
module Catalog {
  import opened Wrappers
  import Text

  /** `validCategories`. */
  const ValidCategories: seq<string> := [
    "animals", "history", "space", "biology", "languages", "food", "geography",
    "science", "culture", "records", "inventions", "sports", "tech", "century"]

  /** The category a row falls back to. */
  const FallbackCategory: string := "science"

  /** The lower-cased category when the whitelist holds it, otherwise
      "science". The value is not trimmed first. */
  function NormalizeCategory(raw: Option<string>): (c: string)
    ensures c in ValidCategories
    ensures raw.Some? && Text.ToLower(raw.value) in ValidCategories ==> c == Text.ToLower(raw.value)
    ensures (raw.None? || Text.ToLower(raw.value) !in ValidCategories) ==> c == FallbackCategory
  {
    if raw.Some? && Text.ToLower(raw.value) in ValidCategories then Text.ToLower(raw.value)
    else FallbackCategory
  }

  /** A whitelisted category is its own normal form, whatever its case was. */
  lemma NormalizeIdempotent(raw: Option<string>)
    ensures NormalizeCategory(Some(NormalizeCategory(raw))) == NormalizeCategory(raw)
  {
    if raw.Some? && Text.ToLower(raw.value) in ValidCategories {
      Text.ToLowerIdempotent(raw.value);
    } else {
      FallbackIsLower();
    }
  }

  /** The fallback is written in lower case and is on the whitelist. */
  lemma FallbackIsLower()
    ensures Text.ToLower(FallbackCategory) == FallbackCategory
    ensures FallbackCategory in ValidCategories
  {
  }

  /** `row.tags ? row.tags.split(";").map((t) => t.trim()) : []`: an absent
      or empty field gives no tags. */
  function Tags(raw: Option<string>): (tags: seq<string>)
    ensures raw.None? || raw.value == [] ==> tags == []
    ensures raw.Some? && raw.value != [] ==> |tags| == Text.Occurrences(raw.value, ';') + 1
    ensures forall i :: 0 <= i < |tags| ==> ';' !in tags[i]
  {
    if raw.None? || raw.value == [] then []
    else
      var parts := Text.Split(raw.value, ';');
      Text.SplitCount(raw.value, ';');
      seq(|parts|, i requires 0 <= i < |parts| => Text.Trim(parts[i]))
  }

  /** Each tag is the trimmed piece between semicolons, so tags written
      trimmed and joined with ";" come back as they were written. */
  lemma TagsRoundTrip(tags: seq<string>)
    requires |tags| >= 1 && Text.Join(tags, ';') != []
    requires forall i :: 0 <= i < |tags| ==> ';' !in tags[i] && Text.Trim(tags[i]) == tags[i]
    ensures Tags(Some(Text.Join(tags, ';'))) == tags
  {
    Text.SplitJoin(tags, ';');
  }
}

=== FILE: clock.dfy ===
/** Time as the extension sees it: epoch milliseconds on a local clock
    without time zones or daylight-saving shifts, so that a calendar date is
    the whole number of days since the epoch. */
module Clock {

  const MsPerMinute: int := 60 * 1000
  const MsPerHour: int := 60 * MsPerMinute
  const MsPerDay: int := 24 * MsPerHour

  /** `Number.MAX_SAFE_INTEGER`, 2^53 - 1. */
  const MaxSafeInteger: int := 9_007_199_254_740_991

  /** The largest time value a JavaScript `Date` can hold (section 21.4.1.1
      of ECMA-262, "Time Values and Time Range"): 10^8 days in milliseconds. */
  const MaxTimeValue: int := 8_640_000_000_000_000

  /** The calendar date of an instant, as `toDateString` distinguishes it. */
  function DayOf(t: int): int {
    t / MsPerDay
  }

  /** Midnight at the start of the instant's calendar date. */
  function StartOfDay(t: int): (m: int)
    ensures m <= t < m + MsPerDay
    ensures DayOf(m) == DayOf(t)
  {
    DayOf(t) * MsPerDay
  }

  /** Midnight is the instant less its remainder in the day. */
  lemma StartOfDayRemainder(t: int)
    ensures StartOfDay(t) == t - t % MsPerDay
  {
  }

  /** Whether two instants fall on the same calendar date. */
  predicate SameDay(t: int, u: int) {
    DayOf(t) == DayOf(u)
  }

  /** `Math.floor(Math.random() * n)` for the draw `r` that `Math.random`
      returned: an index into a list of `n` elements, or 0 for an empty list. */
  function RandomIndex(r: real, n: nat): (i: nat)
    requires 0.0 <= r < 1.0
    ensures n > 0 ==> i < n
    ensures n == 0 ==> i == 0
  {
    var x := r * n as real;
    assert 0.0 <= x;
    assert n > 0 ==> x < n as real by {
      if n > 0 {
        assert (1.0 - r) * n as real > 0.0;
      }
    }
    x.Floor
  }

  /** Every index of a non-empty list is drawn by some `Math.random` value:
      the draw `i / n` selects index `i`. */
  lemma RandomIndexReaches(i: nat, n: nat)
    requires i < n
    ensures 0.0 <= i as real / n as real < 1.0
    ensures RandomIndex(i as real / n as real, n) == i
  {
    var r := i as real / n as real;
    assert r * n as real == i as real;
  }
}

=== FILE: options.dfy ===
/** The options page (options.js): loading settings with their defaults,
    the category checkboxes and their labels, saving with validation, and
    the simulated premium upgrade. */
module Options {
  import opened Wrappers
  import opened Storage
  import Text
  import Schedule
  import Quota

  /** `CATEGORIES` of the options page. This list differs from the
      whitelist of the admin page and the API ("language", "technology",
      "21st-century" here; "languages", "tech", "century" there). */
  const OptionCategories: seq<string> := [
    "all", "animals", "history", "space", "biology", "language", "food", "geography",
    "science", "culture", "records", "inventions", "sports", "technology", "21st-century"]

  predicate Distinct(xs: seq<string>) {
    forall i, j :: 0 <= i < j < |xs| ==> xs[i] != xs[j]
  }

  datatype Checkbox = Checkbox(value: string, checked: bool, caption: string)

  /** What the page shows after `loadSettings`. */
  datatype View = View(isPremium: bool, notificationTime: string, checkboxes: seq<Checkbox>)

  /** `category.charAt(0).toUpperCase() + category.slice(1).replace("-", " ")`. */
  function Label(category: string): (l: string)
    ensures |l| == |category|
    ensures |category| > 0 ==> l[0] == Text.UpperChar(category[0])
    ensures forall j :: 1 <= j < |category| ==>
              l[j] == if j - 1 == Text.IndexOf(category[1..], '-') then ' ' else category[j]
  {
    if |category| == 0 then []
    else
      var rest := category[1..];
      Text.ReplaceFirstAt(rest, '-', ' ');
      [Text.UpperChar(category[0])] + Text.ReplaceFirst(rest, '-', ' ')
  }

  /** Only the first hyphen becomes a space, and only the first letter is
      capitalised. */
  lemma LabelExample()
    ensures Label("a-b-c") == "A b-c"
  {
    var rest := "-b-c";
    assert Text.ReplaceFirst(rest, '-', ' ') == " b-c";
    assert "a-b-c"[1..] == rest;
  }

  /** One checkbox per value, in order, checked exactly when its value is
      selected and captioned with its label. */
  function Boxes(values: seq<string>, selected: seq<string>): (boxes: seq<Checkbox>)
    ensures |boxes| == |values|
    ensures forall i :: 0 <= i < |boxes| ==>
              boxes[i].value == values[i]
              && (boxes[i].checked <==> values[i] in selected)
              && boxes[i].caption == Label(values[i])
  {
    seq(|values|, i requires 0 <= i < |values| => Checkbox(values[i], values[i] in selected, Label(values[i])))
  }

  /** `createCategoryCheckboxes`: one checkbox per option category, in
      order, checked exactly when its category is in the selection. */
  function CategoryCheckboxes(selected: seq<string>): (boxes: seq<Checkbox>)
    ensures |boxes| == |OptionCategories|
    ensures forall i :: 0 <= i < |boxes| ==>
              boxes[i].value == OptionCategories[i]
              && (boxes[i].checked <==> OptionCategories[i] in selected)
              && boxes[i].caption == Label(OptionCategories[i])
  {
    Boxes(OptionCategories, selected)
  }

  /** `loadSettings`: premium `|| false`, time `|| "09:00"`, categories
      `|| ["all"]`. */
  function LoadSettings(s: Store): (v: View)
    ensures v.isPremium <==> IsPremium(s)
    ensures s.notificationTime.Some? && s.notificationTime.value != [] ==>
              v.notificationTime == s.notificationTime.value
    ensures s.notificationTime.None? || s.notificationTime == Some([]) ==>
              v.notificationTime == DefaultNotificationTime
    ensures |v.checkboxes| == |OptionCategories|
    ensures s.selectedCategories.Some? ==>
              forall i :: 0 <= i < |v.checkboxes| ==>
                (v.checkboxes[i].checked <==> OptionCategories[i] in s.selectedCategories.value)
    ensures s.selectedCategories.None? ==>
              forall i :: 0 <= i < |v.checkboxes| ==> (v.checkboxes[i].checked <==> i == 0)
  {
    View(IsPremium(s), NotificationTime(s), CategoryCheckboxes(Categories(s)))
  }

  /** The values of the checked boxes, in page order. */
  function Picked(values: seq<string>, checks: seq<bool>): (r: seq<string>)
    requires |values| == |checks|
    ensures |r| == 0 <==> forall i :: 0 <= i < |checks| ==> !checks[i]
    ensures forall x :: x in r ==> x in values
  {
    if |values| == 0 then []
    else
      var rest := Picked(values[1..], checks[1..]);
      assert forall i :: 1 <= i < |checks| ==> checks[1..][i - 1] == checks[i];
      (if checks[0] then [values[0]] else []) + rest
  }

  /** With distinct values, a value is picked exactly when its box is
      checked. */
  lemma {:induction false} PickedMembership(values: seq<string>, checks: seq<bool>, i: int)
    requires |values| == |checks| && Distinct(values)
    requires 0 <= i < |values|
    ensures values[i] in Picked(values, checks) <==> checks[i]
  {
    if i > 0 {
      assert Distinct(values[1..]);
      PickedMembership(values[1..], checks[1..], i - 1);
      assert values[i] != values[0];
    } else {
      assert values[0] !in values[1..] by {
        forall k | 0 <= k < |values[1..]| ensures values[1..][k] != values[0] {
          assert values[1..][k] == values[k + 1];
        }
      }
    }
  }

  /** Over distinct values, the boxes built from the picked values are
      checked exactly as the boxes that were picked from. */
  lemma BoxesRoundTrip(values: seq<string>, checks: seq<bool>)
    requires |checks| == |values| && Distinct(values)
    ensures forall i :: 0 <= i < |checks| ==> Boxes(values, Picked(values, checks))[i].checked == checks[i]
  {
    forall i | 0 <= i < |checks|
      ensures Boxes(values, Picked(values, checks))[i].checked == checks[i]
    {
      PickedMembership(values, checks, i);
    }
  }

  /** No category is offered twice. */
  lemma CategoriesDistinct()
    ensures Distinct(OptionCategories)
  {
  }


  datatype SaveStatus = Rejected(message: string) | SettingsSaved(alarm: Option<Schedule.Alarm>)

  /** `saveSettings`: with no box checked, an error and no write; otherwise
      the checked categories and the time are written and the alarm is
      rebuilt from the new storage. */
  function SaveSettings(s: Store, checks: seq<bool>, time: string, now: int): (result: (Store, SaveStatus))
    requires |checks| == |OptionCategories|
    ensures result.1.Rejected? <==> forall i :: 0 <= i < |checks| ==> !checks[i]
    ensures result.1.Rejected? ==> result.0 == s && result.1.message == "Please select at least one category"
    ensures result.1.SettingsSaved? ==>
              && result.0 == s.(selectedCategories := Some(Picked(OptionCategories, checks)),
                                notificationTime := Some(time))
              && result.1.alarm == Schedule.SetupDailyAlarm(result.0, now)
  {
    var selected := Picked(OptionCategories, checks);
    if |selected| == 0 then (s, Rejected("Please select at least one category"))
    else
      var written := s.(selectedCategories := Some(selected), notificationTime := Some(time));
      (written, SettingsSaved(Schedule.SetupDailyAlarm(written, now)))
  }

  /** Saving then loading shows the page as it was left: the boxes that
      were checked are checked again and the time typed is shown (the
      default when it was left empty); a refused save changes nothing the
      page shows. */
  lemma SaveThenLoadRoundTrip(s: Store, checks: seq<bool>, time: string, now: int)
    requires |checks| == |OptionCategories|
    ensures var (r, status) := SaveSettings(s, checks, time, now);
            var v := LoadSettings(r);
            && (status.SettingsSaved? ==>
                  && (forall i :: 0 <= i < |checks| ==> v.checkboxes[i].checked == checks[i])
                  && v.notificationTime == (if time == [] then DefaultNotificationTime else time)
                  && v.isPremium == IsPremium(s))
            && (status.Rejected? ==> v == LoadSettings(s))
  {
    CategoriesDistinct();
    BoxesRoundTrip(OptionCategories, checks);
  }

  /** A successful save never stores an empty selection, so the quota and
      fetch paths always find a category to request. */
  lemma SavedSelectionNonEmpty(s: Store, checks: seq<bool>, time: string, now: int)
    requires |checks| == |OptionCategories|
    ensures var (r, status) := SaveSettings(s, checks, time, now);
            status.SettingsSaved? ==> |Categories(r)| > 0 && forall c :: c in Categories(r) ==> c in OptionCategories
  {
  }

  /** `upgradeToPremium`: the flag is set only when the user confirms. */
  function UpgradeToPremium(s: Store, confirmed: bool): (r: Store)
    ensures confirmed ==> IsPremium(r)
    ensures !confirmed ==> r == s
    ensures r.(premium := s.premium) == s
  {
    if confirmed then s.(premium := Some(true)) else s
  }

  /** After a confirmed upgrade every quota check passes and leaves storage
      as it is. */
  lemma UpgradeLiftsQuota(s: Store, today: int)
    ensures var r := UpgradeToPremium(s, true);
            Quota.CheckDailyLimit(r, today) == Quota.Check(true, r)
  {
  }
}

=== FILE: pause.dfy ===
/** The popup's pause controls (popup.js `pauseNotifications`,
    `resumeNotifications` and the paused check in `setupPauseControls`). */
module Pause {
  import opened Wrappers
  import opened Storage
  import opened Clock
  import Text

  /** The hour a "tomorrow" pause ends. */
  const ResumeHour: int := 9

  /** The `until` instant of a pause: 09:00 tomorrow, `MAX_SAFE_INTEGER`
      for a manual pause, otherwise now plus the duration in milliseconds
      (`None` where `parseInt` gives `NaN`). */
  function PauseUntil(duration: string, now: int): (u: Option<int>)
    ensures duration == "tomorrow" ==> u == Some(StartOfDay(now) + MsPerDay + ResumeHour * MsPerHour)
    ensures duration == "manual" ==> u == Some(MaxSafeInteger)
    ensures duration != "tomorrow" && duration != "manual" ==>
              (u.Some? <==> Text.ParseInt(duration).Some?)
  {
    if duration == "tomorrow" then Some(StartOfDay(now) + MsPerDay + ResumeHour * MsPerHour)
    else if duration == "manual" then Some(MaxSafeInteger)
    else
      match Text.ParseInt(duration)
      case Some(d) => Some(now + d)
      case None => None
  }

  /** `pauseNotifications`: the `notificationsPaused` record is written and
      nothing else changes. */
  function PauseNotifications(s: Store, duration: string, now: int): (r: Store)
    ensures r.paused == Some(PauseRecord(PauseUntil(duration, now), now, duration))
    ensures r.(paused := s.paused) == s
  {
    s.(paused := Some(PauseRecord(PauseUntil(duration, now), now, duration)))
  }

  /** A pause record exists and its `until` lies strictly ahead. An expired
      record is left in storage and simply stops counting. */
  predicate IsPaused(s: Store, now: int) {
    s.paused.Some? && s.paused.value.until.Some? && s.paused.value.until.value > now
  }

  /** A pause covers an interval ending at its `until`: paused at some
      instant means paused at every earlier one, and not paused means not
      paused at any later one. */
  lemma PauseIsInterval(s: Store, t1: int, t2: int)
    requires t1 <= t2
    ensures IsPaused(s, t2) ==> IsPaused(s, t1)
    ensures !IsPaused(s, t1) ==> !IsPaused(s, t2)
  {
  }

  /** `resumeNotifications`: the record is removed. */
  function ResumeNotifications(s: Store): (r: Store)
    ensures forall t :: !IsPaused(r, t)
    ensures r.(paused := s.paused) == s
  {
    s.(paused := None)
  }

  /** A manual pause holds at every instant a `Date` can represent. */
  lemma ManualPauseHolds(s: Store, now: int, t: int)
    requires t <= MaxTimeValue
    ensures IsPaused(PauseNotifications(s, "manual", now), t)
  {
  }

  /** A "tomorrow" pause is in force now and ends at 09:00 on the next
      calendar date, which is more than nine hours and at most 33 hours
      ahead. */
  lemma TomorrowPauseWindow(s: Store, now: int, t: int)
    ensures var p := PauseNotifications(s, "tomorrow", now);
            var until := p.paused.value.until.value;
            && DayOf(until) == DayOf(now) + 1
            && until % MsPerDay == ResumeHour * MsPerHour
            && now + ResumeHour * MsPerHour < until <= now + MsPerDay + ResumeHour * MsPerHour
            && (IsPaused(p, t) <==> t < until)
  {
    StartOfDayRemainder(now);
  }

  /** A pause of `n` milliseconds written as a decimal number holds exactly
      until `now + n`. */
  lemma TimedPauseWindow(s: Store, n: nat, now: int, t: int)
    ensures IsPaused(PauseNotifications(s, Text.Decimal(n), now), t) <==> t < now + n
  {
    var d := Text.Decimal(n);
    assert d != "tomorrow" && d != "manual" by {
      assert Text.IsDigit(d[0]);
    }
    Text.ParseIntDecimal(n);
  }

  /** A duration that does not parse yields an `until` of `NaN`, and the
      pause never counts. */
  lemma UnparsedDurationNeverPauses(s: Store, duration: string, now: int, t: int)
    requires duration != "tomorrow" && duration != "manual"
    requires Text.ParseInt(duration).None?
    ensures !IsPaused(PauseNotifications(s, duration, now), t)
  {
  }
}

=== FILE: quota.dfy ===
/** The free tier's daily quota (background.js `checkDailyLimit` and
    `updateDailyCount`, repeated verbatim in popup.js) and the delivery
    pipeline that consults it: `fetchAndShowFact` in the background page and
    `getFact` in the popup. The network reply is a parameter. */
module Quota {
  import opened Wrappers
  import opened Storage
  import Clock

  /** `FACTS_PER_DAY_FREE`; popup.js writes the same literal. */
  const FreeDailyLimit: nat := 5

  /** The verdict of a quota check and the storage it leaves behind. */
  datatype Check = Check(allowed: bool, store: Store)

  /** `checkDailyLimit`: premium users pass untouched; otherwise a stored
      reset date other than today restarts the count and allows; otherwise
      the stored count (0 when absent) must be under the limit. */
  function CheckDailyLimit(s: Store, today: int): (c: Check)
    ensures c.allowed <==> IsPremium(s) || s.lastResetDate != Some(today) || Count(s) < FreeDailyLimit
    ensures IsPremium(s) || s.lastResetDate == Some(today) ==> c.store == s
    ensures !IsPremium(s) ==> c.store.lastResetDate == Some(today)
    ensures !IsPremium(s) && s.lastResetDate != Some(today) ==> Count(c.store) == 0
    ensures c.store.(dailyCount := s.dailyCount, lastResetDate := s.lastResetDate) == s
  {
    if IsPremium(s) then Check(true, s)
    else if s.lastResetDate != Some(today) then
      Check(true, s.(dailyCount := Some(0), lastResetDate := Some(today)))
    else Check(Count(s) < FreeDailyLimit, s)
  }

  /** `updateDailyCount`: one more fact for a free user, nothing for a
      premium one. */
  function UpdateDailyCount(s: Store): (r: Store)
    ensures IsPremium(s) ==> r == s
    ensures !IsPremium(s) ==> Count(r) == Count(s) + 1
    ensures r.(dailyCount := s.dailyCount) == s
  {
    if IsPremium(s) then s else s.(dailyCount := Some(Count(s) + 1))
  }

  /** A second check on the same day neither changes storage nor changes the
      verdict: the reset happens at most once per day. */
  lemma CheckIdempotent(s: Store, today: int)
    ensures var c := CheckDailyLimit(s, today);
            CheckDailyLimit(c.store, today) == c
  {
  }

  /** For a free user the verdict is exactly "the count after any reset is
      under the limit". */
  lemma AllowedIffUnderLimit(s: Store, today: int)
    requires !IsPremium(s)
    ensures var c := CheckDailyLimit(s, today);
            c.allowed <==> Count(c.store) < FreeDailyLimit
  {
  }

  /** The request `fetch` is sent: `/facts?category=<c>&limit=1`. The
      category is `None` where the code reads past the end of an empty
      stored list and sends `undefined`. */
  datatype Request = NoRequest | FactRequest(category: Option<string>)

  /** What the fact API answered: a transport or JSON failure, or a body
      with its `success` flag and its `facts` array (absent when `None`). */
  datatype Reply = NetworkError | Reply(success: bool, facts: Option<seq<Fact>>)

  datatype Outcome = LimitReached | NoFacts | FetchFailed | Shown(fact: Fact)

  datatype Attempt = Attempt(outcome: Outcome, store: Store, request: Request)

  /** `categories[Math.floor(Math.random() * categories.length)]` over the
      stored categories (`["all"]` when absent). */
  function RequestedCategory(s: Store, r: real): (c: Option<string>)
    requires 0.0 <= r < 1.0
    ensures c.Some? <==> |Categories(s)| > 0
    ensures c.Some? ==> c.value in Categories(s)
    ensures s.selectedCategories.None? ==> c == Some(AllCategories)
  {
    var cats := Categories(s);
    var i := Clock.RandomIndex(r, |cats|);
    if i < |cats| then Some(cats[i]) else None
  }

  /** One delivery attempt: the quota check, then (if allowed) the request
      and the reply's handling. A fact is shown only when the reply is a
      success with a non-empty `facts` array, and only then is the count
      raised. A `success` reply without a `facts` array throws on
      `.length` and ends as a fetch failure. The reset written by the check
      stays written whatever the fetch does. */
  function Deliver(s: Store, today: int, r: real, reply: Reply): (a: Attempt)
    requires 0.0 <= r < 1.0
    ensures a.outcome == LimitReached <==> !CheckDailyLimit(s, today).allowed
    ensures a.outcome == LimitReached ==> a.store == s && a.request == NoRequest
    ensures a.outcome != LimitReached ==> a.request == FactRequest(RequestedCategory(s, r))
    ensures a.outcome.Shown? <==>
              && CheckDailyLimit(s, today).allowed
              && reply.Reply? && reply.success && reply.facts.Some? && |reply.facts.value| > 0
    ensures a.outcome.Shown? ==> a.outcome.fact == reply.facts.value[0]
    ensures a.outcome == FetchFailed <==>
              CheckDailyLimit(s, today).allowed && (reply.NetworkError? || (reply.success && reply.facts.None?))
    ensures Count(a.store) == Count(CheckDailyLimit(s, today).store)
                              + (if a.outcome.Shown? && !IsPremium(s) then 1 else 0)
    ensures !a.outcome.Shown? ==> a.store == CheckDailyLimit(s, today).store
    ensures a.store.(dailyCount := s.dailyCount, lastResetDate := s.lastResetDate) == s
  {
    var c := CheckDailyLimit(s, today);
    if !c.allowed then Attempt(LimitReached, c.store, NoRequest)
    else
      var request := FactRequest(RequestedCategory(c.store, r));
      match reply
      case NetworkError => Attempt(FetchFailed, c.store, request)
      case Reply(success, facts) =>
        if !success then Attempt(NoFacts, c.store, request)
        else if facts.None? then Attempt(FetchFailed, c.store, request)
        else if |facts.value| > 0 then
          Attempt(Shown(facts.value[0]), UpdateDailyCount(c.store), request)
        else Attempt(NoFacts, c.store, request)
  }

  datatype Notification = Notification(title: string, message: string)

  /** The notification the background page raises for each outcome. */
  function Notice(o: Outcome): (n: Notification)
    ensures n.title == "Daily Fact" <==> o.Shown?
    ensures o.Shown? ==> n.message == o.fact.text
    ensures n.title == "Daily Limit Reached" <==> o == LimitReached
  {
    match o
    case LimitReached => Notification("Daily Limit Reached", "Upgrade to Premium for unlimited facts!")
    case NoFacts => Notification("No Facts Available", "Please try again later.")
    case FetchFailed => Notification("Error", "Failed to fetch fact. Please check your connection.")
    case Shown(f) => Notification("Daily Fact", f.text)
  }

  /** background.js `fetchAndShowFact`, run by the alarm, the context menu and
      the `getFact` message. */
  function FetchAndShowFact(s: Store, today: int, r: real, reply: Reply): (result: (Notification, Store))
    requires 0.0 <= r < 1.0
    ensures result.0.title == "Daily Fact" <==> Deliver(s, today, r, reply).outcome.Shown?
    ensures result.0.title == "Daily Limit Reached" ==> result.1 == s
    ensures Count(result.1) <= Count(CheckDailyLimit(s, today).store) + 1
  {
    var a := Deliver(s, today, r, reply);
    (Notice(a.outcome), a.store)
  }

  /** What the popup shows after its "get fact" button. */
  datatype PopupView = FactCard(fact: Fact) | ErrorText(message: string)

  /** popup.js `getFact`: the same pipeline, reporting in the popup instead
      of a notification; the fact shown becomes the current fact. */
  function GetFact(s: Store, today: int, r: real, reply: Reply): (result: (PopupView, Store))
    requires 0.0 <= r < 1.0
    ensures result.0.FactCard? <==> Deliver(s, today, r, reply).outcome.Shown?
    ensures result.0 == ErrorText("Daily limit reached. Upgrade to Premium for unlimited facts!")
            <==> !CheckDailyLimit(s, today).allowed
    ensures result.1 == Deliver(s, today, r, reply).store
  {
    var a := Deliver(s, today, r, reply);
    var view := match a.outcome
      case LimitReached => ErrorText("Daily limit reached. Upgrade to Premium for unlimited facts!")
      case NoFacts => ErrorText("No facts available. Please try again later.")
      case FetchFailed => ErrorText("Failed to fetch fact. Please check your connection.")
      case Shown(f) => FactCard(f);
    (view, a.store)
  }

  predicate ValidDraws(draws: seq<real>) {
    forall i :: 0 <= i < |draws| ==> 0.0 <= draws[i] < 1.0
  }

  /** A run of delivery attempts on one calendar date: the storage at the
      end and the number of facts shown. */
  function RunDay(s: Store, today: int, draws: seq<real>, replies: seq<Reply>): (Store, nat)
    requires |draws| == |replies| && ValidDraws(draws)
    decreases |draws|
  {
    if |draws| == 0 then (s, 0)
    else
      var a := Deliver(s, today, draws[0], replies[0]);
      var rest := RunDay(a.store, today, draws[1..], replies[1..]);
      (rest.0, rest.1 + (if a.outcome.Shown? then 1 else 0))
  }

  /** The quota's purpose: whatever the replies, a free user is shown at most
      `FreeDailyLimit` facts on one date, less those already counted, and
      every fact shown is counted. */
  lemma {:induction false} FreeUserDailyCap(s: Store, today: int, draws: seq<real>, replies: seq<Reply>)
    requires |draws| == |replies| && ValidDraws(draws)
    requires !IsPremium(s)
    ensures var start := CheckDailyLimit(s, today).store;
            var (end, shown) := RunDay(s, today, draws, replies);
            && (|draws| > 0 ==> Count(end) == Count(start) + shown)
            && shown <= if Count(start) < FreeDailyLimit then FreeDailyLimit - Count(start) else 0
    decreases |draws|
  {
    if |draws| > 0 {
      var a := Deliver(s, today, draws[0], replies[0]);
      AllowedIffUnderLimit(s, today);
      assert a.store.lastResetDate == Some(today) && !IsPremium(a.store);
      assert CheckDailyLimit(a.store, today).store == a.store;
      assert ValidDraws(draws[1..]) by {
        forall i | 0 <= i < |draws[1..]| ensures 0.0 <= draws[1..][i] < 1.0 {
          assert draws[1..][i] == draws[i + 1];
        }
      }
      FreeUserDailyCap(a.store, today, draws[1..], replies[1..]);
    }
  }

  /** A premium user is shown a fact for every successful reply, and the
      counter never moves. */
  lemma {:induction false} PremiumUnlimited(s: Store, today: int, draws: seq<real>, replies: seq<Reply>)
    requires |draws| == |replies| && ValidDraws(draws)
    requires IsPremium(s)
    requires forall i :: 0 <= i < |replies| ==>
               replies[i].Reply? && replies[i].success && replies[i].facts.Some? && |replies[i].facts.value| > 0
    ensures RunDay(s, today, draws, replies) == (s, |draws|)
    decreases |draws|
  {
    if |draws| > 0 {
      assert ValidDraws(draws[1..]) by {
        forall i | 0 <= i < |draws[1..]| ensures 0.0 <= draws[1..][i] < 1.0 {
          assert draws[1..][i] == draws[i + 1];
        }
      }
      PremiumUnlimited(s, today, draws[1..], replies[1..]);
    }
  }

  /** From a fresh install, five fetches on the install date succeed and
      count up to five, the sixth is refused, and after an upgrade to
      premium the next fetch succeeds without touching the count. */
  lemma FreshInstallScenario(today: int, f: Fact)
    ensures var ok := Reply(true, Some([f]));
            var s0 := Install(Empty, today);
            var day := RunDay(s0, today, [0.0, 0.0, 0.0, 0.0, 0.0], [ok, ok, ok, ok, ok]);
            && day.1 == 5 && Count(day.0) == 5
            && Deliver(day.0, today, 0.0, ok).outcome == LimitReached
            && var upgraded := day.0.(premium := Some(true));
               var a := Deliver(upgraded, today, 0.0, ok);
               a.outcome == Shown(f) && Count(a.store) == 5
  {
    var ok := Reply(true, Some([f]));
    var s0 := Install(Empty, today);
    var s1 := Deliver(s0, today, 0.0, ok).store;
    var s2 := Deliver(s1, today, 0.0, ok).store;
    var s3 := Deliver(s2, today, 0.0, ok).store;
    var s4 := Deliver(s3, today, 0.0, ok).store;
    var s5 := Deliver(s4, today, 0.0, ok).store;
    assert Count(s5) == 5;
    assert RunDay(s4, today, [0.0], [ok]) == (s5, 1);
    assert RunDay(s3, today, [0.0, 0.0], [ok, ok]) == (s5, 2);
    assert RunDay(s2, today, [0.0, 0.0, 0.0], [ok, ok, ok]) == (s5, 3);
    assert RunDay(s1, today, [0.0, 0.0, 0.0, 0.0], [ok, ok, ok, ok]) == (s5, 4);
    assert RunDay(s0, today, [0.0, 0.0, 0.0, 0.0, 0.0], [ok, ok, ok, ok, ok]) == (s5, 5);
  }
}

=== FILE: saved.dfy ===
/** The saved-facts list: saving the current fact in the popup (popup.js
    `saveFact`), and removing one entry or clearing the list on the options
    page (options.js `removeSavedFact`, `clearSavedFacts`). */
module Saved {
  import opened Wrappers
  import opened Storage

  /** Some saved entry carries this fact id. */
  predicate IsSaved(saved: seq<SavedFact>, id: string) {
    exists i :: 0 <= i < |saved| && saved[i].fact.id == id
  }

  /** No two saved entries carry the same fact id. */
  predicate UniqueIds(saved: seq<SavedFact>) {
    forall i, j :: 0 <= i < j < |saved| ==> saved[i].fact.id != saved[j].fact.id
  }

  /** The number of saved entries with this fact id. */
  function Occurrences(saved: seq<SavedFact>, id: string): nat {
    if |saved| == 0 then 0
    else (if saved[0].fact.id == id then 1 else 0) + Occurrences(saved[1..], id)
  }

  lemma {:induction false} OccurrencesZero(saved: seq<SavedFact>, id: string)
    ensures Occurrences(saved, id) == 0 <==> !IsSaved(saved, id)
  {
    if |saved| > 0 {
      OccurrencesZero(saved[1..], id);
      if IsSaved(saved[1..], id) {
        var i :| 0 <= i < |saved[1..]| && saved[1..][i].fact.id == id;
        assert saved[i + 1].fact.id == id;
      }
      if IsSaved(saved, id) && saved[0].fact.id != id {
        var i :| 0 <= i < |saved| && saved[i].fact.id == id;
        assert saved[1..][i - 1].fact.id == id;
      }
    }
  }

  lemma {:induction false} OccurrencesAppend(saved: seq<SavedFact>, x: SavedFact, id: string)
    ensures Occurrences(saved + [x], id) == Occurrences(saved, id) + (if x.fact.id == id then 1 else 0)
  {
    if |saved| > 0 {
      assert (saved + [x])[1..] == saved[1..] + [x];
      OccurrencesAppend(saved[1..], x, id);
    } else {
      assert saved + [x] == [x];
    }
  }

  /** Saving `f` at `now`: a list that already holds its id is returned as
      it is, otherwise one entry is appended. */
  function SaveToList(saved: seq<SavedFact>, f: Fact, now: int): (r: seq<SavedFact>)
    ensures IsSaved(saved, f.id) ==> r == saved
    ensures !IsSaved(saved, f.id) ==> r == saved + [SavedFact(f, now)]
    ensures IsSaved(r, f.id)
  {
    if IsSaved(saved, f.id) then saved
    else
      assert (saved + [SavedFact(f, now)])[|saved|].fact.id == f.id;
      saved + [SavedFact(f, now)]
  }

  /** Saving is idempotent by id: a second save of the same fact, at any
      instant, changes nothing. */
  lemma SaveIdempotent(saved: seq<SavedFact>, f: Fact, now: int, later: int)
    ensures SaveToList(SaveToList(saved, f, now), f, later) == SaveToList(saved, f, now)
  {
  }

  /** Saving keeps ids unique, and afterwards exactly one entry carries the
      saved fact's id. */
  lemma SavePreservesUniqueness(saved: seq<SavedFact>, f: Fact, now: int)
    requires UniqueIds(saved)
    ensures UniqueIds(SaveToList(saved, f, now))
    ensures Occurrences(SaveToList(saved, f, now), f.id) == 1
  {
    OccurrencesZero(saved, f.id);
    if IsSaved(saved, f.id) {
      UniqueOccursOnce(saved, f.id);
    } else {
      OccurrencesAppend(saved, SavedFact(f, now), f.id);
    }
  }

  lemma {:induction false} UniqueOccursOnce(saved: seq<SavedFact>, id: string)
    requires UniqueIds(saved) && IsSaved(saved, id)
    ensures Occurrences(saved, id) == 1
  {
    if saved[0].fact.id == id {
      assert !IsSaved(saved[1..], id) by {
        forall i | 0 <= i < |saved[1..]| ensures saved[1..][i].fact.id != id {
          assert saved[1..][i] == saved[i + 1];
        }
      }
      OccurrencesZero(saved[1..], id);
    } else {
      var i :| 0 <= i < |saved| && saved[i].fact.id == id;
      assert saved[1..][i - 1].fact.id == id;
      UniqueOccursOnce(saved[1..], id);
    }
  }

  /** What the save button reports. */
  datatype SaveStatus = NoCurrentFact | AlreadySaved | SavedNow

  /** popup.js `saveFact`: nothing without a current fact; "already saved"
      without a write; otherwise the list (empty when absent) with the new
      entry is written. */
  function SaveFact(s: Store, current: Option<Fact>, now: int): (result: (Store, SaveStatus))
    ensures result.1 != SavedNow ==> result.0 == s
    ensures result.1 == AlreadySaved <==> current.Some? && IsSaved(SavedFacts(s), current.value.id)
    ensures result.1 == SavedNow ==>
              && current.Some?
              && SavedFacts(result.0) == SavedFacts(s) + [SavedFact(current.value, now)]
    ensures current.Some? ==> SavedFacts(result.0) == SaveToList(SavedFacts(s), current.value, now)
    ensures result.0.(savedFacts := s.savedFacts) == s
  {
    match current
    case None => (s, NoCurrentFact)
    case Some(f) =>
      if IsSaved(SavedFacts(s), f.id) then (s, AlreadySaved)
      else (s.(savedFacts := Some(SaveToList(SavedFacts(s), f, now))), SavedNow)
  }

  /** `array.splice(index, 1)`: a negative index counts from the end (and
      is clamped at the front), an index past the end removes nothing. */
  function SpliceOne<T>(s: seq<T>, index: int): (r: seq<T>)
    ensures |r| == if -|s| <= index < |s| || (index < -|s| && |s| > 0) then |s| - 1 else |s|
  {
    var start := if index < 0 then (if |s| + index < 0 then 0 else |s| + index) else index;
    if start < |s| then s[..start] + s[start + 1..] else s
  }

  /** Removing position `i` removes exactly that element: the ones before it
      stay in place, the ones after it move down by one. */
  lemma SpliceRemovesExactlyOne<T>(s: seq<T>, i: int)
    requires 0 <= i < |s|
    ensures |SpliceOne(s, i)| == |s| - 1
    ensures forall j :: 0 <= j < i ==> SpliceOne(s, i)[j] == s[j]
    ensures forall j :: i <= j < |s| - 1 ==> SpliceOne(s, i)[j] == s[j + 1]
    ensures multiset(SpliceOne(s, i)) + multiset{s[i]} == multiset(s)
  {
    assert s == s[..i] + [s[i]] + s[i + 1..];
  }

  /** options.js `removeSavedFact`: the spliced list is written back. */
  function RemoveSavedFact(s: Store, index: int): (r: Store)
    ensures 0 <= index < |SavedFacts(s)| ==>
              SavedFacts(r) == SavedFacts(s)[..index] + SavedFacts(s)[index + 1..]
    ensures index >= |SavedFacts(s)| ==> SavedFacts(r) == SavedFacts(s)
    ensures r.(savedFacts := s.savedFacts) == s
  {
    s.(savedFacts := Some(SpliceOne(SavedFacts(s), index)))
  }

  /** Removing an entry keeps the remaining ids unique. */
  lemma RemoveKeepsUniqueness(s: Store, index: int)
    requires UniqueIds(SavedFacts(s))
    requires 0 <= index < |SavedFacts(s)|
    ensures UniqueIds(SavedFacts(RemoveSavedFact(s, index)))
  {
    SpliceRemovesExactlyOne(SavedFacts(s), index);
    var r := SavedFacts(RemoveSavedFact(s, index));
    var old_ := SavedFacts(s);
    forall i, j | 0 <= i < j < |r| ensures r[i].fact.id != r[j].fact.id {
      var i' := if i < index then i else i + 1;
      var j' := if j < index then j else j + 1;
      assert r[i] == old_[i'] && r[j] == old_[j'];
    }
  }

  /** options.js `clearSavedFacts`: after the confirmation the list is
      empty; a declined confirmation changes nothing. */
  function ClearSavedFacts(s: Store, confirmed: bool): (r: Store)
    ensures confirmed ==> SavedFacts(r) == [] && r.savedFacts.Some?
    ensures !confirmed ==> r == s
    ensures r.(savedFacts := s.savedFacts) == s
  {
    if confirmed then s.(savedFacts := Some([])) else s
  }
}

=== FILE: schedule.dfy ===
/** background.js `setupDailyAlarm`: the first instant the daily alarm fires,
    computed from the stored "HH:MM" time and the current instant. */
module Schedule {
  import opened Wrappers
  import opened Storage
  import opened Clock
  import Text

  const AlarmName: string := "dailyFact"

  /** `periodInMinutes: 24 * 60`. */
  const AlarmPeriodMinutes: int := 24 * 60

  datatype Alarm = Alarm(name: string, when: int, periodInMinutes: int)

  /** `const [hours, minutes] = time.split(":")` followed by `parseInt` of
      each piece; a missing piece is `undefined`, which parses as `NaN`. */
  function ParseTime(t: string): (hm: Option<(int, int)>)
    ensures ':' !in t ==> hm.None?
  {
    var parts := Text.Split(t, ':');
    assert ':' !in t ==> |parts| == 1 by {
      if ':' !in t { Text.SplitWithoutSeparator(t, ':'); }
    }
    var h := Text.ParseInt(parts[0]);
    var m := if |parts| >= 2 then Text.ParseInt(parts[1]) else None;
    if h.Some? && m.Some? then Some((h.value, m.value)) else None
  }

  /** Milliseconds from midnight to the wall-clock time `h:m`, as
      `setHours(h, m, 0, 0)` computes it; out-of-range values roll over. */
  function Offset(h: int, m: int): int {
    h * MsPerHour + m * MsPerMinute
  }

  /** Today at `h:m:00.000` if that is strictly after `now`, otherwise the
      same wall-clock time one day later. */
  function FirstFire(h: int, m: int, now: int): (when: int)
    ensures Offset(h, m) >= 0 ==> when > now
    ensures (when - Offset(h, m)) % MsPerDay == 0
    ensures StartOfDay(now) + Offset(h, m) > now ==> when == StartOfDay(now) + Offset(h, m)
    ensures 0 <= Offset(h, m) < MsPerDay ==> when <= now + MsPerDay
  {
    var at := StartOfDay(now) + Offset(h, m);
    if at <= now then at + MsPerDay else at
  }

  /** For a time of day within the day, the alarm fires at the earliest
      instant after `now` showing that wall-clock time: every later such
      instant is at or after it. */
  lemma FirstFireIsEarliest(h: int, m: int, now: int, t: int)
    requires 0 <= h < 24 && 0 <= m < 60
    requires t > now && t % MsPerDay == Offset(h, m)
    ensures FirstFire(h, m, now) % MsPerDay == Offset(h, m)
    ensures FirstFire(h, m, now) <= t
  {
    var o := Offset(h, m);
    var d := DayOf(now);
    var k := t / MsPerDay;
    assert MsPerDay == 86_400_000 && 0 <= o < MsPerDay;
    assert t == k * MsPerDay + o;
    assert StartOfDay(now) == d * MsPerDay;
    if StartOfDay(now) + o <= now {
      assert k > d;
      assert FirstFire(h, m, now) == (d + 1) * MsPerDay + o;
    } else {
      assert k >= d;
      assert FirstFire(h, m, now) == d * MsPerDay + o;
    }
  }

  /** `setupDailyAlarm`: the stored time (or "09:00") decides the first fire;
      the alarm is named "dailyFact" and repeats every 1440 minutes. Creating
      it under the same name replaces any earlier one, so the result is the
      whole alarm state. `None` is a time whose pieces do not parse. */
  function SetupDailyAlarm(s: Store, now: int): (a: Option<Alarm>)
    ensures a.Some? ==> a.value.name == AlarmName && a.value.periodInMinutes == 1440
    ensures a.Some? <==> ParseTime(NotificationTime(s)).Some?
    ensures a.Some? ==> var (h, m) := ParseTime(NotificationTime(s)).value;
                        a.value.when == FirstFire(h, m, now) && (Offset(h, m) >= 0 ==> a.value.when > now)
  {
    match ParseTime(NotificationTime(s))
    case None => None
    case Some((h, m)) => Some(Alarm(AlarmName, FirstFire(h, m, now), AlarmPeriodMinutes))
  }

  /** For a stored time within the day, the alarm first fires at the
      earliest instant after `now` that shows that time: it shows it, it is
      after `now`, and no later instant showing it comes before. */
  lemma AlarmAtFirstOpportunity(s: Store, now: int, h: int, m: int, t: int)
    requires ParseTime(NotificationTime(s)) == Some((h, m))
    requires 0 <= h < 24 && 0 <= m < 60
    requires t > now && t % MsPerDay == Offset(h, m)
    ensures SetupDailyAlarm(s, now).Some?
    ensures var w := SetupDailyAlarm(s, now).value.when;
            now < w <= t && w % MsPerDay == Offset(h, m)
  {
    FirstFireIsEarliest(h, m, now, t);
  }

  /** Two digits, as an `<input type="time">` writes hours and minutes. */
  function Pad2(n: nat): (s: string)
    requires n < 100
    ensures |s| == 2 && Text.IsDigit(s[0]) && Text.IsDigit(s[1])
  {
    [Text.Digit(n / 10), Text.Digit(n % 10)]
  }

  /** The "HH:MM" value the options page stores. */
  function FormatTime(h: nat, m: nat): (t: string)
    requires h < 100 && m < 100
    ensures |t| == 5 && t[2] == ':'
    ensures forall i :: 0 <= i < 5 && i != 2 ==> Text.IsDigit(t[i])
  {
    Pad2(h) + [':'] + Pad2(m)
  }

  lemma ParsePad2(n: nat)
    requires n < 100
    ensures Text.ParseInt(Pad2(n)) == Some(n)
  {
    var s := Pad2(n);
    assert !Text.IsSpace(s[0]);
    assert Text.TrimStart(s) == s;
    Text.AllDigitsPrefix(s);
    assert Text.Magnitude(s) == Some(Text.DigitsValue(s, 10));
    assert s[..1] == [s[0]] && s[..1][..0] == [];
    assert Text.DigitsValue(s[..1], 10) == n / 10;
  }

  /** Parsing reads back every "HH:MM" value written with two digits each. */
  lemma ParseFormatTime(h: nat, m: nat)
    requires h < 100 && m < 100
    ensures ParseTime(FormatTime(h, m)) == Some((h, m))
  {
    Text.SplitAtSeparator(Pad2(h), Pad2(m), ':');
    Text.SplitWithoutSeparator(Pad2(m), ':');
    ParsePad2(h);
    ParsePad2(m);
  }

  /** With nothing stored the alarm is set for 09:00. */
  lemma DefaultAlarm(now: int)
    ensures SetupDailyAlarm(Empty, now) == Some(Alarm(AlarmName, FirstFire(9, 0, now), 1440))
  {
    assert FormatTime(9, 0) == DefaultNotificationTime;
    ParseFormatTime(9, 0);
  }

  /** With nothing stored the alarm fires at 09:00: today when that is still
      ahead (now at 08:00), tomorrow otherwise (now at 10:00). */
  lemma DefaultTimeExamples(now: int)
    ensures now % MsPerDay == 8 * MsPerHour ==>
              SetupDailyAlarm(Empty, now) == Some(Alarm(AlarmName, now + MsPerHour, 1440))
    ensures now % MsPerDay == 10 * MsPerHour ==>
              SetupDailyAlarm(Empty, now) == Some(Alarm(AlarmName, now + 23 * MsPerHour, 1440))
  {
    DefaultAlarm(now);
    var midnight := StartOfDay(now);
    StartOfDayRemainder(now);
    assert Offset(9, 0) == 9 * MsPerHour;
    if now % MsPerDay == 8 * MsPerHour {
      assert midnight + Offset(9, 0) == now + MsPerHour;
    }
    if now % MsPerDay == 10 * MsPerHour {
      assert midnight + Offset(9, 0) == now - MsPerHour;
    }
  }
}

=== FILE: selector.dfy ===
/** The popup's fact selection (popup.js `getAvailableFacts`,
    `loadCurrentFact`, `recycleOldFacts`) and its statistics line
    (`updateStats`). The fact database, the settings and the history arrive
    as values; `Math.random` is the draw `r`. */
module Selector {
  import opened Wrappers
  import opened Storage
  import Clock
  import Seqs

  const FreeTier: string := "free"

  /** `6 * 30 * 24 * 60 * 60 * 1000`: "six months" of thirty days each. */
  const RecencyWindow: int := 6 * 30 * Clock.MsPerDay

  /** What the popup holds in `this.settings`. */
  datatype Settings = Settings(tier: string, categories: seq<string>, factHistory: seq<HistoryEntry>)

  predicate Eligible(f: Fact, st: Settings) {
    !f.hidden && (st.tier != FreeTier ==> f.category in st.categories)
  }

  /** `getAvailableFacts`: hidden facts are dropped, and only a tier other
      than "free" narrows the rest to the selected categories. */
  function AvailableFacts(pool: seq<Fact>, st: Settings): (r: seq<Fact>)
    ensures forall f :: f in r <==> f in pool && Eligible(f, st)
    ensures forall f :: f in r ==> !f.hidden
    ensures st.tier == FreeTier ==> forall f :: f in pool && !f.hidden ==> f in r
  {
    var visible := Seqs.Filter((f: Fact) => !f.hidden, pool);
    if st.tier != FreeTier then Seqs.Filter((f: Fact) => f.category in st.categories, visible)
    else visible
  }

  /** Some history entry records this fact strictly after the cut-off
      `now - RecencyWindow`. */
  predicate RecentlyShown(f: Fact, history: seq<HistoryEntry>, now: int) {
    exists e :: e in history && e.factId == f.id && e.timestamp > now - RecencyWindow
  }

  /** The available facts not shown within the recency window. */
  function UnseenFacts(available: seq<Fact>, history: seq<HistoryEntry>, now: int): (r: seq<Fact>)
    ensures forall f :: f in r <==> f in available && !RecentlyShown(f, history, now)
  {
    Seqs.Filter((f: Fact) => !RecentlyShown(f, history, now), available)
  }

  /** A fact shown once at `shownAt` is excluded until exactly
      `RecencyWindow` milliseconds later and eligible from then on: the
      cut-off comparison is strict. */
  lemma RecencyExpires(f: Fact, shownAt: int, now: int)
    ensures RecentlyShown(f, [HistoryEntry(f.id, shownAt)], now) <==> now < shownAt + RecencyWindow
  {
    assert HistoryEntry(f.id, shownAt) in [HistoryEntry(f.id, shownAt)];
  }

  /** What `loadCurrentFact` ends in: nothing at all when no fact is
      available, the "no new facts" panel when every available fact was
      shown recently, or a chosen fact and the history with its entry. */
  datatype Load = NothingAvailable | NoNewFacts | Chosen(fact: Fact, history: seq<HistoryEntry>)

  /** `loadCurrentFact`: an unseen fact drawn at random, which is displayed
      and then added to the history with the current instant. */
  function LoadCurrentFact(pool: seq<Fact>, st: Settings, now: int, r: real): (l: Load)
    requires 0.0 <= r < 1.0
    ensures l == NothingAvailable <==> |AvailableFacts(pool, st)| == 0
    ensures l == NoNewFacts <==>
              |AvailableFacts(pool, st)| > 0 && |UnseenFacts(AvailableFacts(pool, st), st.factHistory, now)| == 0
    ensures l.Chosen? ==> l.fact in pool && Eligible(l.fact, st) && !RecentlyShown(l.fact, st.factHistory, now)
    ensures l.Chosen? ==> l.history == st.factHistory + [HistoryEntry(l.fact.id, now)]
  {
    var facts := AvailableFacts(pool, st);
    if |facts| == 0 then NothingAvailable
    else
      var unseen := UnseenFacts(facts, st.factHistory, now);
      if |unseen| == 0 then NoNewFacts
      else
        var chosen := unseen[Clock.RandomIndex(r, |unseen|)];
        Chosen(chosen, st.factHistory + [HistoryEntry(chosen.id, now)])
  }

  /** Every unseen fact can be the one chosen: the selection reaches the
      whole candidate set, not a part of it. */
  lemma EveryUnseenFactReachable(pool: seq<Fact>, st: Settings, now: int, i: nat)
    requires i < |UnseenFacts(AvailableFacts(pool, st), st.factHistory, now)|
    ensures var unseen := UnseenFacts(AvailableFacts(pool, st), st.factHistory, now);
            var r := i as real / |unseen| as real;
            0.0 <= r < 1.0 && LoadCurrentFact(pool, st, now, r) == Chosen(unseen[i], st.factHistory + [HistoryEntry(unseen[i].id, now)])
  {
    var unseen := UnseenFacts(AvailableFacts(pool, st), st.factHistory, now);
    Clock.RandomIndexReaches(i, |unseen|);
  }

  /** A fact chosen now is not chosen again within the window: right after
      it enters the history, a later load at any instant before the window
      closes does not return it. */
  lemma NoRepeatWithinWindow(pool: seq<Fact>, st: Settings, now: int, r: real, later: int, r2: real)
    requires 0.0 <= r < 1.0 && 0.0 <= r2 < 1.0
    requires LoadCurrentFact(pool, st, now, r).Chosen?
    requires later < now + RecencyWindow
    ensures var l := LoadCurrentFact(pool, st, now, r);
            var next := LoadCurrentFact(pool, st.(factHistory := l.history), later, r2);
            next.Chosen? ==> next.fact.id != l.fact.id
  {
    var l := LoadCurrentFact(pool, st, now, r);
    assert HistoryEntry(l.fact.id, now) in l.history;
  }

  /** `recycleOldFacts`: a random available fact with no recency filter; the
      history is not touched (the function returns none). */
  function RecycleOldFacts(pool: seq<Fact>, st: Settings, r: real): (f: Option<Fact>)
    requires 0.0 <= r < 1.0
    ensures f.None? <==> |AvailableFacts(pool, st)| == 0
    ensures f.Some? ==> f.value in pool && Eligible(f.value, st)
  {
    var facts := AvailableFacts(pool, st);
    if |facts| == 0 then None else Some(facts[Clock.RandomIndex(r, |facts|)])
  }

  /** Recycling brings back what the recency filter excluded: in the "no new
      facts" state every available fact, recently shown or not, can be
      recycled. */
  lemma RecycleReachesExcluded(pool: seq<Fact>, st: Settings, now: int, i: nat)
    requires i < |AvailableFacts(pool, st)|
    ensures var facts := AvailableFacts(pool, st);
            var r := i as real / |facts| as real;
            0.0 <= r < 1.0 && RecycleOldFacts(pool, st, r) == Some(facts[i])
  {
    Clock.RandomIndexReaches(i, |AvailableFacts(pool, st)|);
  }

  /** The popup's three counters. */
  datatype Stats = Stats(todayCount: nat, savedCount: nat, totalCount: nat)

  /** History entries shown on the given calendar date. */
  function TodayCount(history: seq<HistoryEntry>, today: int): (n: nat)
    ensures n <= |history|
  {
    Seqs.CountWhere((e: HistoryEntry) => Clock.DayOf(e.timestamp) == today, history)
  }

  /** `updateStats`: today's entries, saved facts, all entries. */
  function UpdateStats(history: seq<HistoryEntry>, saved: seq<SavedFact>, today: int): (s: Stats)
    ensures s.todayCount == TodayCount(history, today) <= s.totalCount == |history|
    ensures s.savedCount == |saved|
  {
    Stats(TodayCount(history, today), |saved|, |history|)
  }

  /** Loading a fact adds exactly one to today's count on the date it was
      loaded, and nothing on any other date. */
  lemma ChosenCountsToday(pool: seq<Fact>, st: Settings, now: int, r: real, today: int)
    requires 0.0 <= r < 1.0
    requires LoadCurrentFact(pool, st, now, r).Chosen?
    ensures var l := LoadCurrentFact(pool, st, now, r);
            TodayCount(l.history, today)
              == TodayCount(st.factHistory, today) + (if Clock.DayOf(now) == today then 1 else 0)
  {
    var l := LoadCurrentFact(pool, st, now, r);
    Seqs.CountConcat((e: HistoryEntry) => Clock.DayOf(e.timestamp) == today, st.factHistory, [HistoryEntry(l.fact.id, now)]);
  }
}

=== FILE: seqs.dfy ===
/** `Array.prototype.filter`, collecting the present values of optional
    results, and the facts about them the model relies on. */
module Seqs {
  import opened Wrappers

  /** The elements of `s` that satisfy `p`, in their original order. */
  function Filter<T(!new)>(p: T -> bool, s: seq<T>): (r: seq<T>)
    ensures |r| <= |s|
    ensures forall x :: x in r <==> x in s && p(x)
  {
    if |s| == 0 then []
    else (if p(s[0]) then [s[0]] else []) + Filter(p, s[1..])
  }

  /** Filtering distributes over concatenation, so it keeps the relative
      order of whatever it keeps. */
  lemma {:induction false} FilterConcat<T(!new)>(p: T -> bool, a: seq<T>, b: seq<T>)
    ensures Filter(p, a + b) == Filter(p, a) + Filter(p, b)
  {
    if |a| > 0 {
      assert (a + b)[1..] == a[1..] + b;
      FilterConcat(p, a[1..], b);
    } else {
      assert a + b == b;
    }
  }

  /** A filter that every element passes returns the sequence itself. */
  lemma {:induction false} FilterKeepsAll<T(!new)>(p: T -> bool, s: seq<T>)
    requires forall i :: 0 <= i < |s| ==> p(s[i])
    ensures Filter(p, s) == s
  {
    if |s| > 0 {
      FilterKeepsAll(p, s[1..]);
      assert s == [s[0]] + s[1..];
    }
  }

  /** The number of elements of `s` that satisfy `p`. */
  function CountWhere<T(!new)>(p: T -> bool, s: seq<T>): (n: nat)
    ensures n <= |s|
  {
    |Filter(p, s)|
  }

  /** Counting is additive over concatenation. */
  lemma CountConcat<T(!new)>(p: T -> bool, a: seq<T>, b: seq<T>)
    ensures CountWhere(p, a + b) == CountWhere(p, a) + CountWhere(p, b)
  {
    FilterConcat(p, a, b);
  }

  /** Every element is counted exactly when every element passes. */
  lemma {:induction false} CountAll<T(!new)>(p: T -> bool, s: seq<T>)
    ensures CountWhere(p, s) == |s| <==> forall i :: 0 <= i < |s| ==> p(s[i])
  {
    if |s| > 0 {
      CountAll(p, s[1..]);
      assert forall i :: 1 <= i < |s| ==> s[i] == s[1..][i - 1];
    }
  }

  /** Every element passes `p` or its complement `q`: the two counts
      partition the sequence. */
  lemma {:induction false} CountComplement<T(!new)>(p: T -> bool, q: T -> bool, s: seq<T>)
    requires forall x :: q(x) == !p(x)
    ensures CountWhere(p, s) + CountWhere(q, s) == |s|
  {
    if |s| > 0 {
      CountComplement(p, q, s[1..]);
    }
  }

  /** A filter that no element passes returns nothing. */
  lemma {:induction false} FilterKeepsNone<T(!new)>(p: T -> bool, s: seq<T>)
    requires forall i :: 0 <= i < |s| ==> !p(s[i])
    ensures Filter(p, s) == []
  {
    if |s| > 0 {
      FilterKeepsNone(p, s[1..]);
    }
  }

  /** The present values of a sequence of optional values, in order. */
  function Somes<T(!new)>(s: seq<Option<T>>): (r: seq<T>)
    ensures |r| <= |s|
    ensures forall x :: x in r <==> Some(x) in s
  {
    if |s| == 0 then []
    else (if s[0].Some? then [s[0].value] else []) + Somes(s[1..])
  }

  /** `Array.prototype.map`. */
  function Map<A, B>(f: A -> B, s: seq<A>): (r: seq<B>)
    ensures |r| == |s|
    ensures forall i :: 0 <= i < |s| ==> r[i] == f(s[i])
  {
    seq(|s|, i requires 0 <= i < |s| => f(s[i]))
  }

  /** Mapping distributes over concatenation. */
  lemma MapConcat<A, B>(f: A -> B, a: seq<A>, b: seq<A>)
    ensures Map(f, a + b) == Map(f, a) + Map(f, b)
  {
  }

  /** `flatMap`: the pieces `f` gives each element, joined in order. */
  function FlatMap<A, B>(f: A -> seq<B>, s: seq<A>): (r: seq<B>)
    decreases |s|
  {
    if |s| == 0 then [] else f(s[0]) + FlatMap(f, s[1..])
  }

  /** Each element contributes its own piece: flattening distributes over
      concatenation. */
  lemma {:induction false} FlatMapConcat<A, B>(f: A -> seq<B>, a: seq<A>, b: seq<A>)
    ensures FlatMap(f, a + b) == FlatMap(f, a) + FlatMap(f, b)
  {
    if |a| > 0 {
      assert (a + b)[1..] == a[1..] + b;
      FlatMapConcat(f, a[1..], b);
    } else {
      assert a + b == b;
    }
  }

  /** When every element gives one piece if it passes `p` and none
      otherwise, the result has one element per passing element. */
  lemma {:induction false} FlatMapCount<A(!new), B>(f: A -> seq<B>, p: A -> bool, s: seq<A>)
    requires forall i :: 0 <= i < |s| ==> |f(s[i])| == if p(s[i]) then 1 else 0
    ensures |FlatMap(f, s)| == CountWhere(p, s)
  {
    if |s| > 0 {
      assert forall i :: 1 <= i < |s| ==> s[1..][i - 1] == s[i];
      FlatMapCount(f, p, s[1..]);
    }
  }

  /** What holds of every piece holds of the whole. */
  lemma {:induction false} FlatMapAll<A, B>(f: A -> seq<B>, q: B -> bool, s: seq<A>)
    requires forall i, y :: 0 <= i < |s| && y in f(s[i]) ==> q(y)
    ensures forall y :: y in FlatMap(f, s) ==> q(y)
  {
    if |s| > 0 {
      assert forall i :: 1 <= i < |s| ==> s[1..][i - 1] == s[i];
      FlatMapAll(f, q, s[1..]);
    }
  }

  /** `flatMap` over elements paired by position with a second sequence
      (an identifier drawn for each element, say). */
  function FlatMap2<A, I, B>(f: (A, I) -> seq<B>, s: seq<A>, ids: seq<I>): (r: seq<B>)
    requires |ids| == |s|
    decreases |s|
  {
    if |s| == 0 then [] else f(s[0], ids[0]) + FlatMap2(f, s[1..], ids[1..])
  }

  /** Each pair contributes its own piece: flattening distributes over
      concatenation. */
  lemma {:induction false} FlatMap2Concat<A, I, B>(f: (A, I) -> seq<B>, a: seq<A>, ia: seq<I>, b: seq<A>, ib: seq<I>)
    requires |ia| == |a| && |ib| == |b|
    ensures FlatMap2(f, a + b, ia + ib) == FlatMap2(f, a, ia) + FlatMap2(f, b, ib)
  {
    if |a| > 0 {
      assert (a + b)[1..] == a[1..] + b;
      assert (ia + ib)[1..] == ia[1..] + ib;
      FlatMap2Concat(f, a[1..], ia[1..], b, ib);
    } else {
      assert a + b == b && ia + ib == ib;
    }
  }

  /** One piece per element passing `p`, none for the others. */
  lemma {:induction false} FlatMap2Count<A(!new), I, B>(f: (A, I) -> seq<B>, p: A -> bool, s: seq<A>, ids: seq<I>)
    requires |ids| == |s|
    requires forall i :: 0 <= i < |s| ==> |f(s[i], ids[i])| == if p(s[i]) then 1 else 0
    ensures |FlatMap2(f, s, ids)| == CountWhere(p, s)
  {
    if |s| > 0 {
      assert forall i :: 1 <= i < |s| ==> s[1..][i - 1] == s[i] && ids[1..][i - 1] == ids[i];
      FlatMap2Count(f, p, s[1..], ids[1..]);
    }
  }

  /** What holds of every piece holds of the whole. */
  lemma {:induction false} FlatMap2All<A, I, B>(f: (A, I) -> seq<B>, q: B -> bool, s: seq<A>, ids: seq<I>)
    requires |ids| == |s|
    requires forall i, y :: 0 <= i < |s| && y in f(s[i], ids[i]) ==> q(y)
    ensures forall y :: y in FlatMap2(f, s, ids) ==> q(y)
  {
    if |s| > 0 {
      assert forall i :: 1 <= i < |s| ==> s[1..][i - 1] == s[i] && ids[1..][i - 1] == ids[i];
      FlatMap2All(f, q, s[1..], ids[1..]);
    }
  }

  /** Collecting distributes over concatenation. */
  lemma {:induction false} SomesConcat<T(!new)>(a: seq<Option<T>>, b: seq<Option<T>>)
    ensures Somes(a + b) == Somes(a) + Somes(b)
  {
    if |a| > 0 {
      assert (a + b)[1..] == a[1..] + b;
      SomesConcat(a[1..], b);
    } else {
      assert a + b == b;
    }
  }

  /** The elements whose position, counted from `from`, is not in
      `failed`, in order: what a batch of writes leaves behind when the
      writes at the positions in `failed` are rejected. */
  function Surviving<T>(s: seq<T>, failed: set<nat>, from: nat): (kept: seq<T>)
    ensures |kept| <= |s|
    ensures forall x :: x in kept ==> x in s
    ensures (forall i :: from <= i < from + |s| ==> i !in failed) ==> kept == s
    decreases |s|
  {
    if |s| == 0 then []
    else (if from in failed then [] else [s[0]]) + Surviving(s[1..], failed, from + 1)
  }

  /** Writes are judged one at a time: the survivors of two runs are those
      of the first followed by those of the second, counted on from where
      the first run ends. */
  lemma {:induction false} SurvivingConcat<T>(a: seq<T>, b: seq<T>, failed: set<nat>, from: nat)
    ensures Surviving(a + b, failed, from) == Surviving(a, failed, from) + Surviving(b, failed, from + |a|)
    decreases |a|
  {
    if |a| > 0 {
      assert (a + b)[1..] == a[1..] + b;
      SurvivingConcat(a[1..], b, failed, from + 1);
    } else {
      assert a + b == b;
    }
  }

  /** One write survives exactly when its position is not rejected. */
  lemma SurvivingSingle<T>(x: T, failed: set<nat>, from: nat)
    ensures Surviving([x], failed, from) == if from in failed then [] else [x]
  {
    assert [x][1..] == [];
  }

  /** No present value, no result. */
  lemma {:induction false} AllAbsent<T(!new)>(s: seq<Option<T>>)
    requires forall i :: 0 <= i < |s| ==> s[i].None?
    ensures Somes(s) == []
  {
    if |s| > 0 {
      AllAbsent(s[1..]);
    }
  }

  /** A sequence has no more distinct elements than positions. */
  lemma {:induction false} ElementsBound<T>(s: seq<T>)
    ensures |set x | x in s| <= |s|
  {
    if |s| > 0 {
      ElementsBound(s[1..]);
      assert (set x | x in s) == {s[0]} + (set x | x in s[1..]);
    }
  }
}

=== FILE: storage.dfy ===
/** The records the extension keeps in `chrome.storage.local`, and the
    defaults written when the extension is installed (background.js). */
module Storage {
  import opened Wrappers

  /** A fact of the fact database: what the admin page edits and what the
      popup selects from. The REST reply's rows are read into the same shape. */
  datatype Fact = Fact(
    id: string,
    text: string,
    category: string,
    source: Option<string>,
    tags: seq<string>,
    dateAdded: int,
    hidden: bool)

  /** One fact shown to the user, with the instant it was shown. */
  datatype HistoryEntry = HistoryEntry(factId: string, timestamp: int)

  /** A saved fact: the fact's own fields plus the instant it was saved. */
  datatype SavedFact = SavedFact(fact: Fact, savedAt: int)

  /** The `notificationsPaused` record. `until` is `None` when the duration
      did not parse, where JavaScript computes `NaN`. */
  datatype PauseRecord = PauseRecord(until: Option<int>, pausedAt: int, duration: string)

  /** The extension's storage; `None` is a key that is absent. The reset
      date is held as a calendar date number (see Clock.DayOf). */
  datatype Store = Store(
    premium: Option<bool>,
    dailyCount: Option<nat>,
    lastResetDate: Option<int>,
    selectedCategories: Option<seq<string>>,
    notificationTime: Option<string>,
    savedFacts: Option<seq<SavedFact>>,
    paused: Option<PauseRecord>)

  /** Storage before anything was ever written. */
  const Empty: Store := Store(None, None, None, None, None, None, None)

  const AllCategories: string := "all"
  const DefaultNotificationTime: string := "09:00"

  /** `result[PREMIUM_STATUS]` is truthy. */
  predicate IsPremium(s: Store) {
    s.premium == Some(true)
  }

  /** `result[DAILY_COUNT] || 0`. */
  function Count(s: Store): nat {
    s.dailyCount.GetOr(0)
  }

  /** `result[SELECTED_CATEGORIES] || ["all"]`: an array is truthy even when
      empty, so only an absent key falls back. */
  function Categories(s: Store): seq<string> {
    s.selectedCategories.GetOr([AllCategories])
  }

  /** `result[NOTIFICATION_TIME] || "09:00"`: the empty string is falsy and
      falls back too. */
  function NotificationTime(s: Store): (t: string)
    ensures t != []
    ensures s.notificationTime.Some? && s.notificationTime.value != [] ==> t == s.notificationTime.value
  {
    match s.notificationTime
    case Some(v) => if v == [] then DefaultNotificationTime else v
    case None => DefaultNotificationTime
  }

  /** `result[SAVED_FACTS] || []`. */
  function SavedFacts(s: Store): seq<SavedFact> {
    s.savedFacts.GetOr([])
  }

  /** The `onInstalled` write: six keys overwritten with their defaults,
      the reset date set to today, and every other key left as it was. */
  function Install(s: Store, today: int): (r: Store)
    ensures !IsPremium(r) && Count(r) == 0 && r.lastResetDate == Some(today)
    ensures Categories(r) == [AllCategories] && NotificationTime(r) == DefaultNotificationTime
    ensures SavedFacts(r) == []
    ensures r.paused == s.paused
  {
    s.(premium := Some(false), dailyCount := Some(0), lastResetDate := Some(today),
       selectedCategories := Some([AllCategories]), notificationTime := Some(DefaultNotificationTime),
       savedFacts := Some([]))
  }
}

=== FILE: text.dfy ===
/** The JavaScript string operations the extension and the API rely on:
    `trim`, ASCII case mapping, `split` on one character, removal of every
    occurrence of a character, `includes`, `replace` of the first match and
    `Number.parseInt`. Strings are sequences of Unicode scalar values. */
module Text {
  import opened Wrappers

  /** The WhiteSpace and LineTerminator characters of ECMAScript, which
      `trim` and `parseInt` skip. */
  predicate IsSpace(c: char) {
    c in SpaceChars || '\U{2000}' <= c <= '\U{200A}'
  }

  /** The white-space characters outside the range U+2000 to U+200A. */
  const SpaceChars: set<char> := {
    ' ', '\t', '\n', '\r', '\U{000B}', '\U{000C}', '\U{00A0}', '\U{1680}',
    '\U{2028}', '\U{2029}', '\U{202F}', '\U{205F}', '\U{3000}', '\U{FEFF}'}

  predicate AllSpace(s: string) {
    forall i :: 0 <= i < |s| ==> IsSpace(s[i])
  }

  /** `trimStart`: drops the leading run of white space and nothing else. */
  function TrimStart(s: string): (r: string)
    ensures |r| <= |s| && r == s[|s| - |r|..]
    ensures forall i :: 0 <= i < |s| - |r| ==> IsSpace(s[i])
    ensures |r| > 0 ==> !IsSpace(r[0])
  {
    if |s| > 0 && IsSpace(s[0]) then
      var r := TrimStart(s[1..]);
      assert forall i :: 1 <= i < |s| - |r| ==> s[i] == s[1..][i - 1];
      r
    else s
  }

  /** `trimEnd`: drops the trailing run of white space and nothing else. */
  function TrimEnd(s: string): (r: string)
    ensures |r| <= |s| && r == s[..|r|]
    ensures forall i :: |r| <= i < |s| ==> IsSpace(s[i])
    ensures |r| > 0 ==> !IsSpace(r[|r| - 1])
  {
    if |s| > 0 && IsSpace(s[|s| - 1]) then
      var r := TrimEnd(s[..|s| - 1]);
      assert forall i :: |r| <= i < |s| - 1 ==> s[i] == s[..|s| - 1][i];
      r
    else s
  }

  /** `String.prototype.trim`. */
  function Trim(s: string): string {
    TrimEnd(TrimStart(s))
  }

  /** A trimmed string is a slice of the original, bordered only by white
      space, and neither starts nor ends with white space. */
  lemma TrimIsSlice(s: string)
    ensures exists a, b :: 0 <= a <= b <= |s| && Trim(s) == s[a..b]
                           && AllSpace(s[..a]) && AllSpace(s[b..])
    ensures |Trim(s)| > 0 ==> !IsSpace(Trim(s)[0]) && !IsSpace(Trim(s)[|Trim(s)| - 1])
  {
    var t := TrimStart(s);
    SpaceBordered(s, t, TrimEnd(t));
    TrimEnds(s);
  }

  /** A prefix `r` of a suffix `t` of `s`, where what is cut off on either
      side is white space, is a slice of `s` bordered by white space. */
  lemma SpaceBordered(s: string, t: string, r: string)
    requires |t| <= |s| && t == s[|s| - |t|..]
    requires forall i :: 0 <= i < |s| - |t| ==> IsSpace(s[i])
    requires |r| <= |t| && r == t[..|r|]
    requires forall i :: |r| <= i < |t| ==> IsSpace(t[i])
    ensures exists a, b :: 0 <= a <= b <= |s| && r == s[a..b]
                           && AllSpace(s[..a]) && AllSpace(s[b..])
  {
    var a := |s| - |t|;
    var b := a + |r|;
    assert s[a..][..|r|] == s[a..b];
    forall i | 0 <= i < a ensures IsSpace(s[..a][i]) {
      assert s[..a][i] == s[i];
    }
    forall i | 0 <= i < |s| - b ensures IsSpace(s[b..][i]) {
      assert s[b..][i] == t[|r| + i];
    }
    assert 0 <= a <= b <= |s| && r == s[a..b] && AllSpace(s[..a]) && AllSpace(s[b..]);
  }

  /** Trimming adds no character. */
  lemma TrimKeepsAbsent(s: string, c: char)
    requires c !in s
    ensures c !in Trim(s)
  {
    var t := TrimStart(s);
    assert c !in t by { assert t == s[|s| - |t|..]; }
  }

  /** A trimmed string neither starts nor ends with white space. */
  lemma TrimEnds(s: string)
    ensures |Trim(s)| > 0 ==> !IsSpace(Trim(s)[0]) && !IsSpace(Trim(s)[|Trim(s)| - 1])
  {
    var t := TrimStart(s);
    var r := TrimEnd(t);
    if |r| > 0 {
      assert r[0] == t[0];
    }
  }

  /** Trimming leaves nothing exactly when the string is all white space:
      the test `if (line.trim())` skips precisely the blank lines. */
  lemma TrimEmptyIffBlank(s: string)
    ensures Trim(s) == [] <==> AllSpace(s)
  {
    var t := TrimStart(s);
    if |t| > 0 {
      assert s[|s| - |t|] == t[0];
      assert !IsSpace(t[0]);
    }
  }

  /** Trimming twice is trimming once. */
  lemma TrimIdempotent(s: string)
    ensures Trim(Trim(s)) == Trim(s)
  {
    var r := Trim(s);
    if |r| > 0 {
      assert TrimStart(r) == r;
      assert TrimEnd(r) == r;
    }
  }

  function LowerChar(c: char): char {
    if 'A' <= c <= 'Z' then (c as int + 32) as char else c
  }

  function UpperChar(c: char): char {
    if 'a' <= c <= 'z' then (c as int - 32) as char else c
  }

  /** `toLowerCase`, restricted to the ASCII letters. */
  function ToLower(s: string): (r: string)
    ensures |r| == |s|
    ensures forall i :: 0 <= i < |s| ==> r[i] == LowerChar(s[i])
  {
    seq(|s|, i requires 0 <= i < |s| => LowerChar(s[i]))
  }

  /** Lower-casing is idempotent. */
  lemma ToLowerIdempotent(s: string)
    ensures ToLower(ToLower(s)) == ToLower(s)
  {
  }

  /** `s.split(sep)` for a one-character separator: the pieces between the
      separators, always at least one. */
  function Split(s: string, sep: char): (parts: seq<string>)
    ensures |parts| >= 1
    ensures forall i :: 0 <= i < |parts| ==> sep !in parts[i]
  {
    if |s| == 0 then [[]]
    else
      var rest := Split(s[1..], sep);
      if s[0] == sep then [[]] + rest
      else [[s[0]] + rest[0]] + rest[1..]
  }

  /** `parts.join(sep)`. */
  function Join(parts: seq<string>, sep: char): string
    requires |parts| >= 1
  {
    if |parts| == 1 then parts[0] else parts[0] + [sep] + Join(parts[1..], sep)
  }

  /** A joined string starts with its first piece. */
  lemma JoinStartsWithFirst(parts: seq<string>, sep: char)
    requires |parts| >= 1
    ensures |Join(parts, sep)| >= |parts[0]| && Join(parts, sep)[..|parts[0]|] == parts[0]
  {
    if |parts| > 1 {
      assert Join(parts, sep) == parts[0] + ([sep] + Join(parts[1..], sep));
    }
  }

  /** Splitting loses nothing: joining the pieces restores the string. */
  lemma {:induction false} JoinSplit(s: string, sep: char)
    ensures Join(Split(s, sep), sep) == s
  {
    if |s| > 0 {
      var rest := Split(s[1..], sep);
      JoinSplit(s[1..], sep);
      if s[0] != sep {
        var parts := Split(s, sep);
        if |rest| > 1 {
          assert parts[1..] == rest[1..];
          assert Join(rest, sep) == rest[0] + [sep] + Join(rest[1..], sep);
        }
        assert s == [s[0]] + s[1..];
      }
    }
  }

  /** A string without the separator is a single piece. */
  lemma SplitWithoutSeparator(s: string, sep: char)
    requires sep !in s
    ensures Split(s, sep) == [s]
  {
    if |s| > 0 {
      assert sep !in s[1..];
      SplitWithoutSeparator(s[1..], sep);
      assert s == [s[0]] + s[1..];
    }
  }

  /** A separator after a separator-free prefix ends the first piece. */
  lemma {:induction false} SplitAtSeparator(a: string, b: string, sep: char)
    requires sep !in a
    ensures Split(a + [sep] + b, sep) == [a] + Split(b, sep)
  {
    if |a| > 0 {
      assert (a + [sep] + b)[1..] == a[1..] + [sep] + b;
      assert sep !in a[1..];
      SplitAtSeparator(a[1..], b, sep);
      assert (a + [sep] + b)[0] == a[0] != sep;
      assert a == [a[0]] + a[1..];
    } else {
      assert a + [sep] + b == [sep] + b;
    }
  }

  /** Joining pieces that contain no separator and splitting again gives
      the pieces back. */
  lemma {:induction false} SplitJoin(parts: seq<string>, sep: char)
    requires |parts| >= 1
    requires forall i :: 0 <= i < |parts| ==> sep !in parts[i]
    ensures Split(Join(parts, sep), sep) == parts
  {
    if |parts| == 1 {
      SplitWithoutSeparator(parts[0], sep);
    } else {
      SplitJoin(parts[1..], sep);
      SplitAtSeparator(parts[0], Join(parts[1..], sep), sep);
      assert parts == [parts[0]] + parts[1..];
    }
  }

  /** Every separator starts a new piece: there is one piece more than there
      are separators. */
  lemma {:induction false} SplitCount(s: string, sep: char)
    ensures |Split(s, sep)| == Occurrences(s, sep) + 1
  {
    if |s| > 0 {
      SplitCount(s[1..], sep);
    }
  }

  function Occurrences(s: string, c: char): nat {
    if |s| == 0 then 0 else (if s[0] == c then 1 else 0) + Occurrences(s[1..], c)
  }

  /** Occurrences add up over a concatenation. */
  lemma {:induction false} OccurrencesConcat(a: string, b: string, c: char)
    ensures Occurrences(a + b, c) == Occurrences(a, c) + Occurrences(b, c)
  {
    if |a| > 0 {
      assert (a + b)[1..] == a[1..] + b;
      OccurrencesConcat(a[1..], b, c);
    } else {
      assert a + b == b;
    }
  }

  /** Text framed by pieces without the character has as many occurrences
      as the text itself. */
  lemma OccurrencesBetween(a: string, m: string, b: string, c: char)
    requires Occurrences(a, c) == 0 && Occurrences(b, c) == 0
    ensures Occurrences(a + m + b, c) == Occurrences(m, c)
  {
    OccurrencesConcat(a, m, c);
    OccurrencesConcat(a + m, b, c);
  }

  /** A character that is absent occurs zero times. */
  lemma OccurrencesAbsent(s: string, c: char)
    requires c !in s
    ensures Occurrences(s, c) == 0
  {
    if |s| > 0 {
      assert c !in s[1..];
      OccurrencesAbsent(s[1..], c);
    }
  }

  /** `s.replace(/c/g, "")`: every occurrence of `c` removed, every other
      character kept in order. */
  function RemoveAll(s: string, c: char): (r: string)
    ensures c !in r
    ensures |r| == |s| - Occurrences(s, c)
    ensures forall x :: x in r <==> x in s && x != c
  {
    if |s| == 0 then []
    else (if s[0] == c then [] else [s[0]]) + RemoveAll(s[1..], c)
  }

  /** Removing a character the string does not contain changes nothing. */
  lemma RemoveAbsent(s: string, c: char)
    requires c !in s
    ensures RemoveAll(s, c) == s
  {
    if |s| > 0 {
      assert c !in s[1..];
      RemoveAbsent(s[1..], c);
      assert s == [s[0]] + s[1..];
    }
  }

  /** Removing a character distributes over concatenation. */
  lemma {:induction false} RemoveAllConcat(a: string, b: string, c: char)
    ensures RemoveAll(a + b, c) == RemoveAll(a, c) + RemoveAll(b, c)
  {
    if |a| > 0 {
      assert (a + b)[1..] == a[1..] + b;
      RemoveAllConcat(a[1..], b, c);
    } else {
      assert a + b == b;
    }
  }

  /** Removing a character from a string it encloses removes it from the
      inside only. */
  lemma RemoveEnclosing(x: string, c: char)
    ensures RemoveAll([c] + x + [c], c) == RemoveAll(x, c)
  {
    RemoveAllConcat([c] + x, [c], c);
    RemoveAllConcat([c], x, c);
    assert RemoveAll([c], c) == [];
  }

  /** A string that neither starts nor ends with white space is trimmed. */
  lemma TrimmedByEnds(s: string)
    requires s != [] && !IsSpace(s[0]) && !IsSpace(s[|s| - 1])
    ensures Trim(s) == s
  {
    assert TrimStart(s) == s;
  }

  /** A character that is neither the separator nor in any piece is not in
      the joined string. */
  lemma {:induction false} JoinAvoids(parts: seq<string>, sep: char, c: char)
    requires |parts| >= 1 && c != sep
    requires forall i :: 0 <= i < |parts| ==> c !in parts[i]
    ensures c !in Join(parts, sep)
  {
    if |parts| > 1 {
      JoinAvoids(parts[1..], sep, c);
    }
  }

  /** `s.includes(sub)`: `sub` occurs at some position of `s`. */
  predicate Includes(s: string, sub: string) {
    sub <= s || (|s| > 0 && Includes(s[1..], sub))
  }

  /** `sub` occurs in `s` starting at position `i`. */
  ghost predicate OccursAt(s: string, sub: string, i: int) {
    0 <= i <= |s| - |sub| && s[i..i + |sub|] == sub
  }

  /** `includes` agrees with the positional definition of a substring. */
  lemma {:induction false} IncludesAt(s: string, sub: string)
    ensures Includes(s, sub) <==> exists i :: OccursAt(s, sub, i)
  {
    if sub <= s {
      assert OccursAt(s, sub, 0);
    } else if |s| > 0 {
      IncludesAt(s[1..], sub);
      if i :| OccursAt(s, sub, i) {
        assert i != 0;
        assert OccursAt(s[1..], sub, i - 1);
      }
      if j :| OccursAt(s[1..], sub, j) {
        assert s[j + 1..j + 1 + |sub|] == s[1..][j..j + |sub|];
        assert OccursAt(s, sub, j + 1);
      }
    } else {
      assert forall i :: !OccursAt(s, sub, i);
    }
  }

  /** The empty search string is found in every string. */
  lemma IncludesEmpty(s: string)
    ensures Includes(s, [])
  {
  }

  /** The position of the first `c` in `s`, or `|s|` when there is none. */
  function IndexOf(s: string, c: char): (i: nat)
    ensures i <= |s|
    ensures i < |s| ==> s[i] == c
    ensures c !in s[..i]
  {
    if |s| == 0 then 0
    else if s[0] == c then 0
    else
      var j := IndexOf(s[1..], c);
      assert s[..j + 1] == [s[0]] + s[1..][..j];
      j + 1
  }

  /** `s.replace(from, to)` with a one-character string pattern. */
  function ReplaceFirst(s: string, from: char, to: char): (r: string)
    ensures |r| == |s|
  {
    if |s| == 0 then s
    else if s[0] == from then [to] + s[1..]
    else [s[0]] + ReplaceFirst(s[1..], from, to)
  }

  /** Only the first occurrence is replaced; a string without the pattern is
      returned unchanged. */
  lemma {:induction false} ReplaceFirstSpec(s: string, from: char, to: char)
    ensures var i := IndexOf(s, from);
            ReplaceFirst(s, from, to) == if i == |s| then s else s[..i] + [to] + s[i + 1..]
  {
    if |s| > 0 && s[0] != from {
      ReplaceFirstSpec(s[1..], from, to);
      var i := IndexOf(s[1..], from);
      if i < |s| - 1 {
        assert s[..i + 1] == [s[0]] + s[1..][..i];
        assert s[i + 2..] == s[1..][i + 1..];
      }
    }
  }

  /** Position by position: the first occurrence becomes `to`, every other
      character stays. */
  lemma {:induction false} ReplaceFirstAt(s: string, from: char, to: char)
    ensures forall j :: 0 <= j < |s| ==>
              ReplaceFirst(s, from, to)[j] == if j == IndexOf(s, from) then to else s[j]
  {
    if |s| > 0 && s[0] != from {
      ReplaceFirstAt(s[1..], from, to);
    }
  }

  // ---------------------------------------------------------------------
  // Number.parseInt
  // ---------------------------------------------------------------------

  predicate IsDigit(c: char) { '0' <= c <= '9' }

  predicate IsHexDigit(c: char) { IsDigit(c) || 'a' <= c <= 'f' || 'A' <= c <= 'F' }

  function DigitValue(c: char): nat
    requires IsHexDigit(c)
  {
    if IsDigit(c) then c as int - '0' as int
    else if 'a' <= c <= 'f' then c as int - 'a' as int + 10
    else c as int - 'A' as int + 10
  }

  /** The longest prefix of `s` whose characters all satisfy the radix's
      digit test. */
  function DigitPrefix(s: string, hex: bool): (d: string)
    ensures d <= s
    ensures forall i :: 0 <= i < |d| ==> (if hex then IsHexDigit(d[i]) else IsDigit(d[i]))
    ensures |d| < |s| ==> !(if hex then IsHexDigit(s[|d|]) else IsDigit(s[|d|]))
  {
    if |s| > 0 && (if hex then IsHexDigit(s[0]) else IsDigit(s[0])) then
      [s[0]] + DigitPrefix(s[1..], hex)
    else []
  }

  function DigitsValue(d: string, radix: nat): nat
    requires forall i :: 0 <= i < |d| ==> IsHexDigit(d[i])
  {
    if |d| == 0 then 0 else DigitsValue(d[..|d| - 1], radix) * radix + DigitValue(d[|d| - 1])
  }

  function Magnitude(t: string): Option<nat> {
    if |t| >= 2 && t[0] == '0' && (t[1] == 'x' || t[1] == 'X') then
      var d := DigitPrefix(t[2..], true);
      if |d| == 0 then None else Some(DigitsValue(d, 16))
    else
      var d := DigitPrefix(t, false);
      if |d| == 0 then None else Some(DigitsValue(d, 10))
  }

  /** `Number.parseInt(s)` with no radix: leading white space, an optional
      sign, a `0x` prefix selecting base 16, then the longest run of digits;
      `None` stands for `NaN` (no digits at all). */
  function ParseInt(s: string): Option<int> {
    var t := TrimStart(s);
    if |t| > 0 && (t[0] == '-' || t[0] == '+') then
      match Magnitude(t[1..])
      case None => None
      case Some(m) =>
        var v: int := if t[0] == '-' then -(m as int) else m;
        Some(v)
    else
      match Magnitude(t)
      case None => None
      case Some(m) =>
        var v: int := m;
        Some(v)
  }

  function Digit(n: nat): (c: char)
    requires n < 10
    ensures IsDigit(c) && DigitValue(c) == n
  {
    ('0' as int + n) as char
  }

  /** The decimal representation of a natural number, as `String(n)`. */
  function Decimal(n: nat): (s: string)
    ensures |s| >= 1
    ensures forall i :: 0 <= i < |s| ==> IsDigit(s[i])
    ensures n > 0 ==> s[0] != '0'
  {
    if n < 10 then [Digit(n)] else Decimal(n / 10) + [Digit(n % 10)]
  }

  lemma {:induction false} DecimalValue(n: nat)
    ensures DigitsValue(Decimal(n), 10) == n
  {
    if n >= 10 {
      DecimalValue(n / 10);
      var s := Decimal(n);
      assert s[..|s| - 1] == Decimal(n / 10);
    }
  }

  lemma AllDigitsPrefix(s: string)
    requires forall i :: 0 <= i < |s| ==> IsDigit(s[i])
    ensures DigitPrefix(s, false) == s
  {
    if |s| > 0 {
      AllDigitsPrefix(s[1..]);
    }
  }

  /** `parseInt` reads back what `String(n)` wrote. */
  lemma ParseIntDecimal(n: nat)
    ensures ParseInt(Decimal(n)) == Some(n)
  {
    var s := Decimal(n);
    assert !IsSpace(s[0]);
    assert TrimStart(s) == s;
    AllDigitsPrefix(s);
    DecimalValue(n);
  }
}

=== FILE: upload.dfy ===
/** The serverless bulk-upload endpoint (bulk-upload.js): a CSV body is cut
    into lines, each line after the first into at most three cells, and the
    rows with a text and a category are inserted into the `facts` table. */
module BulkUpload {
  import opened Wrappers
  import Text
  import Seqs

  /** One row for the `facts` table: text, category and source. */
  datatype UploadRow = UploadRow(text: string, category: string, source: string) {
    /** The test a row must pass to be inserted. */
    predicate Usable() {
      text != [] && category != []
    }
  }

  /** A row that passes the insert test. */
  type UsableRow = r: UploadRow | r.Usable() witness UploadRow("-", "-", "-")

  /** The source a row without one is stored with. */
  const DefaultSource: string := "Bulk upload"

  /** A cell: every double quote removed, then trimmed. */
  function Cell(item: string): (c: string)
    ensures '"' !in c
    ensures Text.Trim(c) == c
  {
    var unquoted := Text.RemoveAll(item, '"');
    Text.TrimIsSlice(unquoted);
    Text.TrimIdempotent(unquoted);
    Text.Trim(unquoted)
  }

  /** Cell `k` of a line, or the empty string when the line has fewer. */
  function CellAt(items: seq<string>, k: nat): (c: string)
    ensures '"' !in c
  {
    if k < |items| then Cell(items[k]) else []
  }

  /** The row three cells make, if any: a text, a category and a source
      (an empty source becomes "Bulk upload"). Without a text or a
      category there is no row. */
  function RowOf(text: string, category: string, source: string): (r: Option<UsableRow>)
    ensures r.Some? <==> text != [] && category != []
    ensures r.Some? ==> r.value.text == text && r.value.category == category
    ensures r.Some? ==> r.value.source == (if source == [] then DefaultSource else source)
  {
    if text != [] && category != [] then
      Some(UploadRow(text, category, if source == [] then DefaultSource else source))
    else None
  }

  /** The row a data line yields, if any: the line is trimmed and, when not
      blank, split on ","; the first three cells are the text, category
      and source, and any further cells are ignored. */
  function LineRow(raw: string): (r: Option<UsableRow>)
    ensures Text.AllSpace(raw) ==> r.None?
    ensures r.Some? ==> '"' !in r.value.text && '"' !in r.value.category
  {
    Text.TrimEmptyIffBlank(raw);
    if Text.Trim(raw) == [] then None
    else
      var items := Text.Split(Text.Trim(raw), ',');
      RowOf(CellAt(items, 0), CellAt(items, 1), CellAt(items, 2))
  }

  /** The rows of the data lines, in order. */
  function Rows(lines: seq<string>): (rows: seq<UsableRow>)
    ensures |rows| <= |lines|
  {
    Seqs.Somes(Seqs.Map(LineRow, lines))
  }

  /** Reading lines one batch after another gives the rows of the whole. */
  lemma RowsConcat(a: seq<string>, b: seq<string>)
    ensures Rows(a + b) == Rows(a) + Rows(b)
  {
    Seqs.MapConcat(LineRow, a, b);
    Seqs.SomesConcat(Seqs.Map(LineRow, a), Seqs.Map(LineRow, b));
  }

  /** One line gives its row, if it has one, and nothing else. */
  lemma RowsSingle(line: string)
    ensures Rows([line]) == if LineRow(line).Some? then [LineRow(line).value] else []
  {
    var m := Seqs.Map(LineRow, [line]);
    assert m == [LineRow(line)];
    assert m[1..] == [];
  }

  /** The rows of a CSV body: its first line is a header and is skipped. */
  function ParseUpload(csv: string): (rows: seq<UsableRow>)
    ensures |rows| < |Text.Split(csv, '\n')|
    ensures '\n' !in csv ==> rows == []
  {
    var lines := Text.Split(csv, '\n');
    assert '\n' !in csv ==> lines[1..] == [] by {
      if '\n' !in csv { Text.SplitWithoutSeparator(csv, '\n'); }
    }
    Rows(lines[1..])
  }

  /** The first line is a header and the lines after it are read, in
      order, as rows. */
  lemma ParseUploadLines(header: string, body: string)
    requires '\n' !in header
    ensures ParseUpload(header + "\n" + body) == Rows(Text.Split(body, '\n'))
  {
    Text.SplitAtSeparator(header, body, '\n');
    assert header + "\n" + body == header + ['\n'] + body;
  }

  /** The header line has no say in what is uploaded. */
  lemma HeaderIgnored(header1: string, header2: string, body: string)
    requires '\n' !in header1 && '\n' !in header2
    ensures ParseUpload(header1 + "\n" + body) == ParseUpload(header2 + "\n" + body)
  {
    Text.SplitAtSeparator(header1, body, '\n');
    Text.SplitAtSeparator(header2, body, '\n');
    assert header1 + "\n" + body == header1 + ['\n'] + body;
    assert header2 + "\n" + body == header2 + ['\n'] + body;
  }

  /** A cell reads the same with its quotes taken out beforehand, and a
      cell without quotes reads as its trimmed text: together, every quote
      goes first and the trim comes after. */
  lemma CellReads(item: string)
    ensures Cell(item) == Cell(Text.RemoveAll(item, '"'))
    ensures '"' !in item ==> Cell(item) == Text.Trim(item)
  {
    Text.RemoveAbsent(Text.RemoveAll(item, '"'), '"');
    if '"' !in item {
      Text.RemoveAbsent(item, '"');
    }
  }

  /** A quoted cell reads as what is between the quotes, without quotes
      and trimmed: blanks inside the quotes are lost. */
  lemma QuotedCell(x: string)
    ensures Cell("\"" + x + "\"") == Text.Trim(Text.RemoveAll(x, '"'))
  {
    Text.RemoveEnclosing(x, '"');
    assert "\"" + x + "\"" == ['"'] + x + ['"'];
  }

  /** `" a"` in the upload reads as `a`. */
  lemma QuotedBlankLost()
    ensures Cell("\" a\"") == "a"
  {
    assert "\" a\"" == "\"" + " a" + "\"";
    QuotedCell(" a");
    Text.RemoveAbsent(" a", '"');
    LeadingBlankTrimmed();
  }

  lemma LeadingBlankTrimmed()
    ensures Text.Trim(" a") == "a"
  {
    var s: string := [' ', 'a'];
    assert s == " a" && s[1..] == ['a'];
    assert Text.IsSpace(' ') && !Text.IsSpace('a');
    assert Text.TrimStart(s) == Text.TrimStart(['a']) == ['a'];
    assert Text.TrimEnd(['a']) == ['a'];
  }

  /** A cell already trimmed and without quotes reads as itself. */
  lemma CleanCell(item: string)
    requires '"' !in item && Text.Trim(item) == item
    ensures Cell(item) == item
  {
    Text.RemoveAbsent(item, '"');
  }

  /** Three comma-free cells joined with commas split back into them. */
  lemma ThreeCells(text: string, category: string, source: string)
    requires ',' !in text && ',' !in category && ',' !in source
    ensures Text.Split(text + "," + category + "," + source, ',') == [text, category, source]
  {
    var parts := [text, category, source];
    assert Text.Join(parts, ',') == text + "," + category + "," + source by {
      assert parts[1..] == [category, source];
      assert Text.Join([category, source], ',') == category + [','] + source;
    }
    Text.SplitJoin(parts, ',');
  }

  /** A line that starts with a trimmed text and ends with a trimmed
      source is its own trim. */
  lemma LineTrimmed(text: string, category: string, source: string)
    requires text != [] && source != []
    requires Text.Trim(text) == text && Text.Trim(source) == source
    ensures Text.Trim(text + "," + category + "," + source) == text + "," + category + "," + source
  {
    var line := text + "," + category + "," + source;
    Text.TrimIsSlice(text);
    Text.TrimIsSlice(source);
    assert line[0] == text[0];
    assert line[|line| - 1] == source[|source| - 1];
    Text.TrimmedByEnds(line);
  }

  /** A cell a writer can round-trip: non-empty, trimmed, and free of
      commas and double quotes. */
  predicate Clean(c: string) {
    c != [] && ',' !in c && '"' !in c && Text.Trim(c) == c
  }

  /** A line written as `text,category,source` from cells that are trimmed
      and hold no comma or quote is read back as that row. */
  lemma LineRoundTrip(text: string, category: string, source: string)
    requires Clean(text) && Clean(category) && Clean(source)
    ensures LineRow(text + "," + category + "," + source) == Some(UploadRow(text, category, source))
  {
    var line := text + "," + category + "," + source;
    LineTrimmed(text, category, source);
    ThreeCells(text, category, source);
    CleanCell(text);
    CleanCell(category);
    CleanCell(source);
    TrimmedLine(line, [text, category, source]);
  }

  /** A line that is its own trim reads its cells straight from its split. */
  lemma TrimmedLine(line: string, items: seq<string>)
    requires line != [] && Text.Trim(line) == line && Text.Split(line, ',') == items
    ensures LineRow(line) == RowOf(CellAt(items, 0), CellAt(items, 1), CellAt(items, 2))
  {
  }

  // ----------------------------------------------------------- handler

  /** The request: its method and, when a JSON body arrived, its `csvData`
      member. */
  datatype Request = Request(httpMethod: string, body: Option<Option<string>>)

  /** What the handler sends back. */
  datatype Payload = NoContent | Failure(error: string) | Uploaded(message: string, count: nat)

  datatype Response = Response(status: nat, payload: Payload)

  const MethodNotAllowed: string := "Method not allowed"
  const CsvRequired: string := "CSV data is required"
  const NoValidFacts: string := "No valid facts found in CSV data"
  const UploadFailed: string := "Failed to upload facts"

  /** The request handler over the `facts` table. A preflight is answered
      at once; any other method but POST is refused; a missing body fails
      like a database error; an absent or empty CSV, or one without a
      usable row, is refused. Otherwise every row is inserted; the reply
      reports the count when all inserts succeed, and a failure otherwise,
      with the successful inserts left in place. */
  function Handle(req: Request, table: seq<UploadRow>, failed: set<nat>): (r: (Response, seq<UploadRow>))
    ensures r.0.status in {200, 400, 405, 500}
    ensures r.0.payload.Uploaded? <==>
              && req.httpMethod == "POST" && req.body.Some? && req.body.value.Some?
              && req.body.value.value != []
              && |ParseUpload(req.body.value.value)| > 0
              && forall i :: 0 <= i < |ParseUpload(req.body.value.value)| ==> i !in failed
    ensures r.0.payload.Uploaded? ==>
              var rows := ParseUpload(req.body.value.value);
              && r.0.status == 200
              && r.0.payload.count == |rows|
              && r.0.payload.message == "Successfully uploaded " + Text.Decimal(|rows|) + " facts"
              && r.1 == table + rows
    ensures req.httpMethod == "OPTIONS" ==> r == (Response(200, NoContent), table)
    ensures req.httpMethod != "OPTIONS" && req.httpMethod != "POST" ==> r == (Response(405, Failure(MethodNotAllowed)), table)
    ensures |r.1| >= |table| && r.1[..|table|] == table
    ensures r.0.status == 500 ==> r.0.payload == Failure(UploadFailed)
    ensures r.0.status == 400 ==> r.1 == table
    ensures req.httpMethod == "POST" && req.body.None? ==> r == (Response(500, Failure(UploadFailed)), table)
    ensures req.httpMethod == "POST" && req.body.Some? && (req.body.value.None? || req.body.value.value == []) ==>
              r == (Response(400, Failure(CsvRequired)), table)
    ensures req.httpMethod == "POST" && req.body.Some? && req.body.value.Some? && req.body.value.value != [] ==>
              var rows := ParseUpload(req.body.value.value);
              && (rows == [] ==> r == (Response(400, Failure(NoValidFacts)), table))
              && ((exists i :: 0 <= i < |rows| && i in failed) ==>
                    r == (Response(500, Failure(UploadFailed)), table + Seqs.Surviving(rows, failed, 0)))
  {
    if req.httpMethod == "OPTIONS" then (Response(200, NoContent), table)
    else if req.httpMethod != "POST" then (Response(405, Failure(MethodNotAllowed)), table)
    else if req.body.None? then (Response(500, Failure(UploadFailed)), table)
    else if req.body.value.None? || req.body.value.value == [] then (Response(400, Failure(CsvRequired)), table)
    else
      var rows := ParseUpload(req.body.value.value);
      if |rows| == 0 then (Response(400, Failure(NoValidFacts)), table)
      else if forall i :: 0 <= i < |rows| ==> i !in failed then
        (Response(200, Uploaded("Successfully uploaded " + Text.Decimal(|rows|) + " facts", |rows|)), table + rows)
      else (Response(500, Failure(UploadFailed)), table + Seqs.Surviving(rows, failed, 0))
  }

  /** Blank lines yield no rows. */
  lemma BlankLinesYieldNothing(lines: seq<string>)
    requires forall i :: 0 <= i < |lines| ==> Text.AllSpace(lines[i])
    ensures Rows(lines) == []
  {
    Seqs.AllAbsent(Seqs.Map(LineRow, lines));
  }

  /** A body whose lines after the header are all blank has no rows. */
  lemma BlankBodyHasNoRows(header: string, blank: seq<string>)
    requires forall i :: 0 <= i < |blank| ==> '\n' !in blank[i] && Text.AllSpace(blank[i])
    requires '\n' !in header
    ensures ParseUpload(Text.Join([header] + blank, '\n')) == []
  {
    var lines := [header] + blank;
    SingleLines(header, blank);
    Text.SplitJoin(lines, '\n');
    assert lines[1..] == blank;
    BlankLinesYieldNothing(blank);
  }

  /** Lines without newlines, the header first. */
  lemma SingleLines(header: string, blank: seq<string>)
    requires forall i :: 0 <= i < |blank| ==> '\n' !in blank[i]
    requires '\n' !in header
    ensures forall i :: 0 <= i < |[header] + blank| ==> '\n' !in ([header] + blank)[i]
  {
    var lines := [header] + blank;
    forall i | 0 <= i < |lines| ensures '\n' !in lines[i] {
      if i > 0 {
        assert lines[i] == blank[i - 1];
      }
    }
  }

  /** A body whose lines after the header are all blank is refused with
      the no-valid-facts message and leaves the table alone. */
  lemma BlankBodyRefused(header: string, blank: seq<string>, table: seq<UploadRow>, failed: set<nat>)
    requires header != [] && '\n' !in header
    requires forall i :: 0 <= i < |blank| ==> '\n' !in blank[i] && Text.AllSpace(blank[i])
    ensures var csv := Text.Join([header] + blank, '\n');
            Handle(Request("POST", Some(Some(csv))), table, failed)
              == (Response(400, Failure(NoValidFacts)), table)
  {
    BlankBodyHasNoRows(header, blank);
    Text.JoinStartsWithFirst([header] + blank, '\n');
    NoRowsRefused(Text.Join([header] + blank, '\n'), table, failed);
  }

  /** A non-empty body without a usable row is refused and changes nothing. */
  lemma NoRowsRefused(csv: string, table: seq<UploadRow>, failed: set<nat>)
    requires csv != [] && ParseUpload(csv) == []
    ensures Handle(Request("POST", Some(Some(csv))), table, failed)
              == (Response(400, Failure(NoValidFacts)), table)
  {
  }
}

=== FILE: wrappers.dfy ===
/** Failure-carrying values shared by every module of the model. */
module Wrappers {

  /** A value that may be absent: an unset storage key, a missing CSV
      field, a JavaScript `null` or `undefined`. */
  datatype Option<+T> = None | Some(value: T) {

    /** `x || fallback` for a value whose only falsy form is absence. */
    function GetOr(fallback: T): T {
      match this
      case Some(v) => v
      case None => fallback
    }
  }

  /** The outcome of an operation that can be refused with a message. */
  datatype Result<+T> = Ok(value: T) | Err(message: string)
}
